=== FILE: README.md ===
# FIRST/FOLLOW calculator — a Dafny model

This project models the analysis engine of `FF.py`, the class
`FirstFollowCalculator`, which computes the FIRST and FOLLOW sets of a
context-free grammar for LL(1) parsing. The engine:

- classifies the symbols of a grammar that has already been read;
- computes FIRST of a single symbol by memoised recursion, guarded against a
  production that refers to its own left-hand side;
- computes FIRST of the suffix of a production;
- grows the FOLLOW sets by repeated passes until a pass changes nothing, or
  until 100 passes have run.

The model is imperative, like the source. `FirstFollowCalculator` is a class
with these fields:

- `grammar`, `order`, `nonTerminals` and `startSymbol`, which are fixed once
  the grammar is read;
- `terminals`, `firstSets` and `followSets`, which its methods update in place.

Each method carries the loops of its Python counterpart, with invariants, and
is proved against pure specification functions and predicates in module
`Grammar`:

- `SeqFirst` is FIRST of a symbol sequence read from a FIRST table.
- `UpTo` cuts a production at the first occurrence of its own left-hand side.
- `UnionFirst` is the union of what each production contributes.
- `OccurrenceRule` and `FollowFixpoint` state the two FOLLOW rules.
- `FollowForced` says that every FOLLOW element lies in every solution of
  those rules.

Module `Examples` applies the contracts to five grammars:

- `A -> A a | b`, the direct left-recursion case;
- `A -> B a`, `B -> A b`, a cycle of FIRST requests;
- `A -> X B`, `X -> X a | b`, `B -> A`, and `A -> X B`, `X -> b`, `B -> A`,
  two cycles of FIRST requests without left recursion;
- the expression grammar `E -> T E'`, `E' -> + T E' | ε`, `T -> F T'`,
  `T' -> * F T' | ε`, `F -> ( E ) | id`.

For the expression grammar it pins down every FIRST and FOLLOW set. The
analysis of `A -> B a`, `B -> A b` is proved to diverge.

Files:

- `grammar.dfy`, module `Grammar`: symbols, tables, specification functions,
  lemmas.
- `calculator.dfy`, module `FirstFollow`: the class `FirstFollowCalculator`.
- `examples.dfy`, module `Examples`: the five grammars.

Terms used below:

- A FIRST table `m` maps symbols to sets. A symbol without an entry reads as
  the empty set (`Lookup`).
- A FIRST table is *valid* (`FirstTableValid`) when:
  - every entry of a terminal or of `ε` is that symbol alone;
  - every entry of a non-terminal is the union, over its productions, of
    FIRST of the production cut at its own left-hand side, read from the same
    table;
  - every symbol that such a scan reads already has its entry;
  - every entry holds only terminals and `ε`.

  Each `compute_first` call records an entry of this kind.
- Divergence: the recursion of `compute_first` is modelled with the set
  `active` of the symbols whose computation is still running further up the
  call stack. Asking again for an active symbol that has no entry yet is
  where the Python recursion would go on forever; Python stops it with a
  `RecursionError`. This happens, for example, on `A -> B a`, `B -> A b`. The model stops at that point and reports
  `diverged`.
- FIRST requests: `LeftEdge(g, a, b)` says that computing FIRST(a) may ask
  for FIRST(b). That holds when `b` is in `LeftCalls` of a production of `a`
  cut at `a`: its first symbol, and each next one while the symbols before
  it are `ε` or non-terminals with productions. `LeftCyclic` says that some
  walk of such requests comes back to where it started: a cycle of FIRST
  requests. Every non-terminal with productions counts as able to vanish
  here, so these are the requests a computation may make, not those it must
  make. A cycle is necessary for a divergence, not sufficient.
- Two conditions bound divergence from both sides:
  - `ReachesReentry(g, x, active)` is necessary. It says that a walk of
    requests from `x` ends at an active symbol or at one it already passed.
  - `HeadReentry(g, terminals, m, x, active)` is sufficient. It says that
    following first productions from `x`, through symbols without an entry
    in `m`, reaches an active symbol.
- FOLLOW totals: `FollowTotal(f, keys)` is the number of elements of the
  FOLLOW sets of `keys`. It is used to bound the number of passes.
- Relaxation: `Relaxed(m, f0, lhs, p, i)` is the set the occurrence of a
  non-terminal at position `i` of a production `p` of `lhs` is to hold,
  read from the FIRST table `m` and the FOLLOW table `f0`. It is FOLLOW of
  `p[i]`, plus FIRST of `p[i+1..]` minus `ε`, plus FOLLOW(lhs) when that
  rest can vanish. `ProductionRelaxed(g, terminals, nonTerminals, m, f0, f,
  lhs, p)` says that, for every non-terminal occurrence in `p`, FOLLOW of it
  in `f` contains that set read from `f0`, and FIRST of the rest is complete
  in `m`. `OrderRelaxed` says the same of every production of the first
  non-terminals of `order`. `PassRelaxed` says it of every production of
  the grammar.

## Model

| member | source | states |
|---|---|---|
| FirstFollow.FirstFollowCalculator.constructor | FF.py:19-28 | The state after a grammar is read: the given grammar, non-terminals and start symbol, empty FIRST and FOLLOW tables, and terminals classified as `_identify_terminals` does. |
| FirstFollow.FirstFollowCalculator.IdentifyTerminals | FF.py:75-83 | Afterwards a symbol is a terminal exactly when it occurs in some production body and is neither a non-terminal nor `ε`. |
| FirstFollow.FirstFollowCalculator.ComputeFirst | FF.py:85-127 | Memoised FIRST of one symbol. An existing entry is returned and nothing changes. A terminal or `ε` gets exactly `{symbol}`, which is recorded. A symbol that is neither a terminal, nor `ε`, nor a non-terminal with productions gets the empty set and the undefined-symbol flag, and nothing is recorded (the flag is set exactly in that case). A non-terminal gets the union over its productions of FIRST of each production cut at its own first self-occurrence. The table stays valid, old entries are kept, and the result is the recorded entry. The call diverges only when a walk of FIRST requests from the symbol re-enters (`ReachesReentry`). It does diverge when first productions lead from the symbol into a running computation (`HeadReentry`). It never diverges when the symbol is not running (not in `active`) and every other non-terminal already has an entry. |
| FirstFollow.FirstFollowCalculator.UnionProductions | FF.py:106-124 | The loop over the productions of a running non-terminal. The result is the union of their contributions, read from the final table, and every scan is complete. It has the same two divergence conditions as `ComputeFirst`. |
| FirstFollow.FirstFollowCalculator.ScanProduction | FF.py:107-124 | What one production contributes: FIRST of the production cut at the self-reference. An empty production gives `{ε}`. `ε` is added unless the scan stopped at a symbol whose FIRST lacks `ε`, so a self-reference after a nullable prefix also adds `ε`. Every symbol read has its entry. A divergence comes from a symbol in `LeftCalls` of the cut production whose own requests re-enter. When the cut production's first symbol leads by first productions into a running computation, the scan diverges. |
| FirstFollow.FirstFollowCalculator.ScanSymbol | FF.py:116-117 | FIRST of the next scanned symbol, asked for while the production's left-hand side is running. The result is that symbol's recorded entry, and the prefix already scanned reads the same as before. A divergence starts from a symbol in `LeftCalls` of the cut production. |
| FirstFollow.FirstFollowCalculator.FirstOfSequence | FF.py:129-147 | The result is FIRST of `sequence[start..]`: `{ε}` for an empty suffix, with the table unchanged. Every symbol it reads has its entry, and the result holds only terminals and `ε`. It never diverges when every non-terminal already has an entry, and it diverges only when the grammar has a cycle of FIRST requests (`LeftCyclic`). |
| FirstFollow.FirstFollowCalculator.RelaxedFollow | FF.py:167-180 | The set the occurrence at `i` is to hold (`Relaxed`). It is the current FOLLOW set, plus FIRST of the rest minus `ε`, plus FOLLOW(lhs) when the rest can vanish or is empty. It holds only terminals and `$`, and FIRST of the rest is complete. It diverges only on a cycle of FIRST requests. |
| FirstFollow.FirstFollowCalculator.RelaxOccurrence | FF.py:163-182 | For a non-terminal at position `i`, its FOLLOW set becomes exactly `Relaxed`: the old set, plus FIRST of the rest minus `ε`, plus FOLLOW(lhs) when the rest can vanish or is empty. No other entry changes. A terminal or `ε` at `i`, or a divergence, changes nothing. `grew` holds exactly when that FOLLOW set strictly grew, which is exactly when the table changed. When it did not grow, both FOLLOW rules of the occurrence hold. For a non-terminal, FIRST of the rest is complete. Only forced elements are added. It diverges only on a cycle of FIRST requests. |
| FirstFollow.FirstFollowCalculator.RelaxProduction | FF.py:163-182 | The same update over every position of one production: unless it diverges, every non-terminal occurrence ends with a FOLLOW set that contains its `Relaxed` set read from the table the call started from (`ProductionRelaxed`). `grew` holds exactly when the FOLLOW table changed. When nothing grew, every FOLLOW rule of the production already held in the starting table. It diverges only on a cycle of FIRST requests. |
| FirstFollow.FirstFollowCalculator.RelaxLhs | FF.py:162-182 | Every production of one non-terminal, within a pass. Unless it diverges, every production of `order[..a+1]` has been relaxed against the table the pass started from (`OrderRelaxed`). The pass's `changed` flag holds exactly when the table differs from that starting table. When it is false, every production of those non-terminals obeys its FOLLOW rules in that table. It diverges only on a cycle of FIRST requests. |
| FirstFollow.FirstFollowCalculator.FollowPass | FF.py:157-182 | One pass over every production of every non-terminal, in the order the grammar was read. Unless it diverges, every occurrence in the grammar has been relaxed against the table the pass started from (`PassRelaxed`). It diverges only on a cycle of FIRST requests. FOLLOW sets only grow and stay forced. `changed` holds exactly when some FOLLOW set changed. A pass that changes nothing proves that the table it started from obeys every FOLLOW rule, and that every FIRST the rules read is complete. |
| FirstFollow.FirstFollowCalculator.ComputeFollow | FF.py:149-185 | `$` is seeded into FOLLOW(start). No FOLLOW set ever holds `ε`, and sets only grow. Between 1 and 100 passes run. The cap warning is set exactly when the pass count is 100, and a run that is not converged used all 100 passes. Every pass but the last adds an element: the pass count is at most the total number of FOLLOW elements, and a run stopped by the cap has more than 100 of them. So at most (number of non-terminals + 1) * (number of terminals + 1) passes run, and the run converges whenever that product is at most 100. It diverges only on a cycle of FIRST requests. A converged table obeys every FOLLOW rule. Every element is forced by the rules and the seed, so a converged table is the least solution. |
| FirstFollow.FirstFollowCalculator.CalculateAll | FF.py:187-192 | FIRST of every non-terminal, in any order, then FOLLOW. The analysis diverges only when the grammar has a cycle of FIRST requests (`LeftCyclic`, a necessary condition, not a sufficient one), and then FOLLOW is untouched; the FOLLOW phase never diverges. When first productions lead every non-terminal back into a running computation, the analysis does diverge. Otherwise every non-terminal with productions has an entry, and the guarantees of `ComputeFollow` hold, including the pass bounds and convergence. |
| Grammar.UpTo | FF.py:112-114 | The cut production is a prefix of the production and free of its left-hand side. When it is shorter than the production, the next symbol is the left-hand side. |
| Grammar.SeqFirstHasEpsilon | FF.py:134-145 | `ε` is in FIRST of a sequence exactly when every symbol's FIRST holds `ε`. |
| Grammar.SeqFirstStopsAt | FF.py:134-142 | When `s[i]` is the first symbol whose FIRST lacks `ε`, FIRST of `s` is exactly the union of FIRST minus `ε` of `s[0..i]` inclusive. |
| Grammar.SeqFirstAllNullable | FF.py:144-145 | When every symbol's FIRST holds `ε`, FIRST of the sequence is the union of their FIRST minus `ε`, plus `ε`. |
| Grammar.SplitFirst | FF.py:134-142 | Scanning across a nullable prefix: FIRST of the sequence is that prefix's FIRST minus `ε` plus FIRST of the rest. |
| Grammar.SeqFirstBounded | FF.py:89-90 | From a valid table, FIRST of a sequence holds only terminals and `ε`. |
| Grammar.ScanStopsAtSelf | FF.py:113-114 | A production whose scan meets its own left-hand side after a nullable prefix contributes that prefix's FIRST minus `ε`, plus `ε`. |
| Grammar.ScanStopsAtNonNullable | FF.py:116-121 | A scan that meets a symbol whose FIRST lacks `ε` contributes FIRST minus `ε` up to and including that symbol, and no `ε`. |
| Grammar.ScanReachesEnd | FF.py:123-124 | A scan that reaches the end of the production contributes FIRST minus `ε` of all its symbols, plus `ε`. |
| Grammar.SeqFirstStable | FF.py:92-93 | Adding entries to the FIRST table does not change FIRST of a sequence whose scan is complete. Memoised results stay correct as the table grows. |
| Grammar.UnionFirstStable | FF.py:126-127 | A recorded FIRST(A) stays equal to its defining union as the table grows. |
| Grammar.SeqFirstMonotone | FF.py:129-147 | FIRST of a sequence can only grow when the FIRST table gains entries. |
| Grammar.FixpointWeakens | FF.py:167-182 | A table that obeys the FOLLOW rules for a larger FIRST table obeys them for a smaller one. |
| Grammar.ForcedStep | FF.py:167-182 | A FOLLOW update adds only elements that every solution of the FOLLOW rules must contain. |
| Grammar.ForcedSeed | FF.py:151 | Seeding `$` into FOLLOW(start) adds only forced elements. |
| Grammar.WriteGrows | FF.py:170-182 | Writing a superset of a FOLLOW entry changes the table exactly when the entry strictly grows, which is exactly when its size grows (the `old_size` test). |
| Grammar.RelaxedRule | FF.py:167-182 | When the relaxed set adds nothing to the entry, the occurrence obeys its FOLLOW rules. |
| Grammar.SameFollowChain | FF.py:158-182 | Along growing tables, the first and the last read the same exactly when no step changed anything. So a `changed` flag set by any step reports a change over the whole pass. |
| Grammar.TotalGrows | FF.py:157-182 | The total number of FOLLOW elements grows with the table, strictly when a counted entry changes. |
| Grammar.ChangeGrowsTotal | FF.py:157-182 | Any change to a FOLLOW table whose keys are all counted strictly grows the total. |
| Grammar.TotalCapacity | FF.py:157-182 | FOLLOW sets that hold only terminals and `$`, kept for the non-terminals and the start symbol, hold at most (number of non-terminals + 1) * (number of terminals + 1) elements in all. |
| Grammar.ScanCalls | FF.py:112-121 | The symbol a scan reaches after a prefix whose FIRST sets all hold `ε` is in `LeftCalls` of the cut production. |
| Grammar.ReentryStep | FF.py:112-117 | A running symbol that asks for a symbol whose requests re-enter also re-enters. |
| Grammar.ReentryCycle | FF.py:85-127 | With nothing running, a walk of FIRST requests that re-enters contains a cycle of FIRST requests. |
| Grammar.RankedAcyclic | FF.py:85-127 | A rank on symbols that every FIRST request lowers rules out a cycle of requests. |
| Grammar.RelaxedSettled | FF.py:163-182 | A production relaxed against a table that it left unchanged obeys every FOLLOW rule in that table. |
| Grammar.PassRelaxedFixpoint | FF.py:157-185 | A pass that relaxed every occurrence and changed nothing leaves a table that obeys every FOLLOW rule, and every FIRST the rules read is complete: the `changed` test is a sound stopping rule. |
| Grammar.LeastSolutionUnique | FF.py:157-182 | Two converged FOLLOW tables that hold only forced elements read the same, whatever order the updates ran in. |
| Examples.LeftRecursionAddsEpsilon | FF.py:111-124 | For the grammar `A -> A a`, `A -> b`, every valid FIRST table that has an entry for A records FIRST(A) = {b, `ε`}. The self-reference stops the scan with `all_derive_epsilon` still true. |
| Examples.AnalyseLeftRecursive | FF.py:85-127 | A fresh calculator for `A -> A a`, `A -> b` computes FIRST(A) = {b, `ε`} and does not diverge. |
| Examples.ExprTerminalsExact | FF.py:75-83 | The terminals of the expression grammar are exactly `+ * ( ) id`. |
| Examples.ExprFirstSets | FF.py:85-127 | In the expression grammar, FIRST(E) = FIRST(T) = FIRST(F) = {(, id}, FIRST(E') = {+, `ε`} and FIRST(T') = {*, `ε`}. |
| Examples.ExprRules | FF.py:163-182 | The FOLLOW rules of the expression grammar, spelled out as nine inclusions between its FOLLOW sets. |
| Examples.ExprFollowSets | FF.py:149-185 | A converged, forced FOLLOW table of the expression grammar started from an empty table, with E as start symbol, has FOLLOW(E) = FOLLOW(E') = {), $}, FOLLOW(T) = FOLLOW(T') = {+, ), $} and FOLLOW(F) = {*, +, ), $}. |
| Examples.ExprAcyclic | FF.py:85-127 | The expression grammar has no cycle of FIRST requests: E asks for T and E', T for F and T', and the rest only for terminals and `ε`. |
| Examples.AnalyseExpr | FF.py:187-192 | A fresh calculator for the expression grammar runs `CalculateAll` without diverging, converges, and finds those FIRST and FOLLOW sets. |
| Examples.NullableCycleCyclic | FF.py:105-127 | `A -> X B`, `X -> X a`, `X -> b`, `B -> A` has a cycle of FIRST requests, A to B and back, although A is not left-recursive. |
| Examples.NullableCycleFirstX | FF.py:111-124 | In that grammar every valid FIRST table with an entry for X records FIRST(X) = {b, `ε`}: the self-reference of `X -> X a` adds `ε`, so the scan of `A -> X B` steps over X. |
| Examples.PlainCycleCyclic | FF.py:105-127 | `A -> X B`, `X -> b`, `B -> A` has the same cycle of FIRST requests. |
| Examples.PlainCycleFirstX | FF.py:116-121 | In that grammar every valid FIRST table with an entry for X records FIRST(X) = {b}, so the scan of `A -> X B` stops at X and never asks for B: the cycle does not lead to a divergence. |
| Examples.MutualReenters | FF.py:112-117 | For `A -> B a`, `B -> A b`, the first productions lead from either non-terminal back into a running computation. |
| Examples.AnalyseMutual | FF.py:187-192 | The analysis of `A -> B a`, `B -> A b` diverges, whichever non-terminal it starts with. |

Three behaviours of the code a reader might not expect:

- An undefined non-terminal gets no entry in the FIRST table (FF.py:102-104).
  It is not recorded as an empty set.
- The cap warning is set whenever the pass count reaches 100 (FF.py:184-185),
  including when the last pass changed nothing.
- Only a direct self-reference is guarded (FF.py:113-114). There is no
  visited set, so a computation that asks again for a symbol whose entry is
  not yet recorded recurses for ever, and the model reports it as
  divergence. Such a divergence need not come from a left recursion. In
  `A -> X B`, `X -> X a | b`, `B -> A`, A is not left-recursive, because X
  derives only `b a*`. But the guard makes `X -> X a` add `ε`, so
  FIRST(X) = {b, `ε`} (`Examples.NullableCycleFirstX`). The scan of
  `A -> X B` then goes on to B (FF.py:116-121), and B asks for A while A is
  still running. Drop the self-reference, as in `A -> X B`, `X -> b`,
  `B -> A`, and the same cycle of requests is harmless: FIRST(X) = {b}, so
  the scan stops at X (`Examples.PlainCycleFirstX`).

## Left out

- `parse_grammar` (FF.py:30-73), which reads a file and may exit the process.
  The model starts from a grammar that has already been read:
  - `grammar` maps each non-terminal with productions to its productions;
  - `order` lists its keys in the order the file listed them;
  - `nonTerminals` holds every left-hand side, including one whose
    alternatives were all empty;
  - `startSymbol` is given.
- `print_first_sets`, `print_follow_sets`, `export_first_follow_sets` and
  `main` (FF.py:194-249): console and file output only.
- The cap warning (FF.py:184-185) is the flag `capWarning`. Nothing is printed.
- ComputeFirst: the warning for an undefined symbol (FF.py:102-104) is
  printed whenever such a symbol is met, also inside a scan or a FOLLOW pass.
  The flag `undefinedSymbol` reports it only for the symbol a call was asked
  about. `ScanSymbol`, `FirstOfSequence` and `CalculateAll` drop the flags of
  the calls they make.
- The Python recursion limit. Each nested FIRST request is one Python frame,
  and Python raises `RecursionError` past its limit (1000 frames by
  default). That happens on a cycle of requests, and also on a long enough
  acyclic chain of them. The model has no depth limit: a cycle gives the
  `diverged` result, and a deep acyclic chain completes.
- ComputeFirst: the two divergence conditions do not meet. A divergence
  implies a re-entering walk of FIRST requests (`ReachesReentry`). A
  re-entry along first productions implies a divergence (`HeadReentry`). A
  re-entry through a later production, or after a nullable prefix, lies
  between the two. Whether it diverges then depends on the entries already
  recorded.
- ScanProduction: the same gap as `ComputeFirst`, for one production.
- CalculateAll: `diverged ==> LeftCyclic(grammar)` is a necessary condition
  only. It does not rule out a divergence on a grammar that FF.py completes,
  such as `A -> X B`, `X -> b`, `B -> A` (`Examples.PlainCycleFirstX`).
- FirstOfSequence: the same necessary-only bound on divergence, which
  `RelaxedFollow`, `RelaxOccurrence`, `RelaxProduction`, `RelaxLhs`,
  `FollowPass` and `ComputeFollow` carry too. Called on a grammar whose
  non-terminals all have FIRST entries, as `CalculateAll` does, they are
  proved never to diverge.
- Iteration over a Python set (`non_terminals` in `calculate_all`, and the
  union in `_identify_terminals`) is an arbitrary choice. Dictionary order
  is the sequence `order`.
- The `defaultdict` of FOLLOW sets: a missing entry reads as the empty set.
  Python's insertion of an empty entry on read is not modelled.
- The `.copy()` of returned sets: Dafny sets are values, so aliasing does not
  arise.
- ComputeFollow: the 100-pass cap can cut the result short. Convergence is
  proved only when (number of non-terminals + 1) * (number of terminals + 1)
  is at most 100. Beyond that a run can stop with FOLLOW sets still missing
  elements. Take `S -> a B1`, then `B_k -> b B_{k+1}` for k from 101 down
  to 1, in that order, then `B102 -> c`, with start symbol S. Each pass
  carries `$` one step down the chain, so after 100 passes FOLLOW(B102)
  still lacks `$`. Such a run ends with `converged` false and `capWarning`
  true. Every element it did find is still forced.

=== FILE: calculator.dfy ===
/**
 * The FIRST/FOLLOW calculator: one object per analysed grammar, whose FIRST
 * table is filled by memoised recursion and whose FOLLOW table is grown by
 * repeated passes over the productions.
 *
 * The recursion of the FIRST computation is modelled with the set `active`
 * of the symbols whose FIRST computation is still running further up the
 * call stack. Asking again for such a symbol, while it has no table entry,
 * is the one situation in which the recursion never comes back (a cycle of
 * FIRST requests such as A -> B a, B -> A b); the model reports it as
 * `diverged` instead of recursing.
 */
module FirstFollow {
  import opened Grammar

  /** The FOLLOW computation gives up after this many passes. */
  const MAX_PASSES: nat := 100

  /** `order` lists the keys of `g` once each, in the order they were read. */
  ghost predicate OrderOfKeys(g: Rules, order: seq<Symbol>) {
    (forall a :: 0 <= a < |order| ==> order[a] in g) &&
    (forall lhs :: lhs in g ==> lhs in order) &&
    (forall a, b :: 0 <= a < b < |order| ==> order[a] != order[b])
  }

  class FirstFollowCalculator {
    /** Each non-terminal with at least one production, and its productions. */
    const grammar: Rules
    /** The keys of `grammar` in the order they were read. */
    const order: seq<Symbol>
    const nonTerminals: set<Symbol>
    const startSymbol: Symbol
    var terminals: set<Symbol>
    /** Memoised FIRST sets. */
    var firstSets: Table
    /** FOLLOW sets; a non-terminal without an entry has the empty FOLLOW set. */
    var followSets: Table

    ghost predicate Valid()
      reads this
    {
      OrderOfKeys(grammar, order) &&
      grammar.Keys <= nonTerminals &&
      EPSILON !in terminals &&
      FirstTableValid(grammar, terminals, firstSets) &&
      FollowBounded(terminals, followSets) &&
      followSets.Keys <= nonTerminals + {startSymbol}
    }

    /**
     * The symbols whose FIRST computation is running: non-terminals with
     * productions and without an entry yet.
     */
    ghost predicate ActiveOk(active: set<Symbol>)
      reads this
    {
      forall k :: k in active ==>
        k in grammar && k !in terminals && k != EPSILON && k !in firstSets
    }

    /**
     * A calculator for an already read grammar: its terminals are classified
     * and both tables start empty.
     */
    constructor (grammar: Rules, order: seq<Symbol>, nonTerminals: set<Symbol>, startSymbol: Symbol)
      requires OrderOfKeys(grammar, order)
      requires grammar.Keys <= nonTerminals
      ensures Valid()
      ensures this.grammar == grammar && this.order == order
      ensures this.nonTerminals == nonTerminals && this.startSymbol == startSymbol
      ensures forall s :: s in terminals <==> IsTerminalOf(grammar, nonTerminals, s)
      ensures firstSets == map[] && followSets == map[]
    {
      this.grammar := grammar;
      this.order := order;
      this.nonTerminals := nonTerminals;
      this.startSymbol := startSymbol;
      terminals := {};
      firstSets := map[];
      followSets := map[];
      new;
      IdentifyTerminals();
    }

    /**
     * Collects every symbol of every production body and keeps as terminals
     * those that are neither non-terminals nor EPSILON.
     */
    method IdentifyTerminals()
      modifies this`terminals
      ensures forall s :: s in terminals <==> IsTerminalOf(grammar, nonTerminals, s)
    {
      var allSymbols: set<Symbol> := {};
      var pending := grammar.Keys;
      while pending != {}
        invariant pending <= grammar.Keys
        invariant forall s :: s in allSymbols <==>
          exists lhs, j :: lhs in grammar && lhs !in pending && 0 <= j < |grammar[lhs]| && s in grammar[lhs][j]
        decreases pending
      {
        var lhs :| lhs in pending;
        var prods := grammar[lhs];
        var j := 0;
        while j < |prods|
          invariant 0 <= j <= |prods|
          invariant forall s :: s in allSymbols <==>
            (exists l, jj :: l in grammar && l !in pending && 0 <= jj < |grammar[l]| && s in grammar[l][jj]) ||
            (exists jj :: 0 <= jj < j && s in prods[jj])
        {
          allSymbols := allSymbols + set s | s in prods[j];
          j := j + 1;
        }
        pending := pending - {lhs};
      }
      terminals := set s | s in allSymbols && s !in nonTerminals && s != EPSILON;
    }

    /**
     * FIRST of one symbol, memoised in `firstSets`. `undefinedSymbol` is the
     * diagnostic for a symbol that is neither a terminal, EPSILON nor a
     * non-terminal with productions; `diverged` reports the unbounded
     * recursion described at the top of this module.
     */
    method ComputeFirst(symbol: Symbol, active: set<Symbol>)
      returns (first: set<Symbol>, undefinedSymbol: bool, diverged: bool)
      requires Valid()
      requires ActiveOk(active)
      modifies this`firstSets
      decreases |grammar.Keys - active|, 3
      ensures Valid() && Extends(old(firstSets), firstSets)
      ensures forall k :: k in firstSets && k !in old(firstSets) ==> k !in active
      // an existing entry is returned and nothing is recorded
      ensures symbol in old(firstSets) ==>
        first == old(firstSets)[symbol] && !undefinedSymbol && !diverged && firstSets == old(firstSets)
      // a terminal or EPSILON is its own FIRST, and that is recorded
      ensures symbol !in old(firstSets) && (symbol in terminals || symbol == EPSILON) ==>
        first == {symbol} && !undefinedSymbol && !diverged && firstSets == old(firstSets)[symbol := {symbol}]
      // an undefined symbol has an empty FIRST, with a diagnostic, and is not recorded
      ensures undefinedSymbol <==> !Defined(grammar, terminals, symbol)
      ensures undefinedSymbol ==> first == {} && !diverged && firstSets == old(firstSets)
      // a non-terminal's FIRST is the union of what its productions contribute
      ensures !diverged && symbol in grammar && symbol !in terminals && symbol != EPSILON ==>
        first == UnionFirst(firstSets, symbol, grammar[symbol])
      ensures !diverged ==> first == Lookup(firstSets, symbol) && Known(grammar, terminals, firstSets, symbol)
      ensures !diverged ==> first <= terminals + {EPSILON}
      ensures diverged ==> symbol in grammar && symbol !in old(firstSets)
      // a divergence is a walk of FIRST requests that re-enters a running computation
      ensures diverged ==> ReachesReentry(grammar, symbol, active)
      ensures symbol !in active && grammar.Keys - {symbol} <= old(firstSets).Keys ==> !diverged
      // and following first productions into a running computation does diverge
      ensures HeadReentry(grammar, terminals, old(firstSets), symbol, active) ==> diverged
    {
      undefinedSymbol, diverged := false, false;
      if symbol in firstSets {
        first := firstSets[symbol];
        return;
      }
      if symbol in terminals || symbol == EPSILON {
        first := {symbol};
        FirstTableExtend(grammar, terminals, firstSets, firstSets[symbol := first]);
        firstSets := firstSets[symbol := first];
        return;
      }
      if symbol !in grammar {
        first, undefinedSymbol := {}, true;
        return;
      }
      if symbol in active {
        first, diverged := {}, true;
        assert Reenters(grammar, active, [symbol]);
        return;
      }
      first, diverged := UnionProductions(symbol, active);
      if !diverged {
        ghost var computed := firstSets;
        FirstTableKeysDefined(grammar, terminals, computed);
        UnionFirstStable(grammar, terminals, computed, computed[symbol := first], symbol, grammar[symbol]);
        FirstTableExtend(grammar, terminals, computed, computed[symbol := first]);
        firstSets := firstSets[symbol := first];
      }
    }

    /**
     * The loop of `ComputeFirst` over the productions of `symbol`: the union
     * of what each contributes, with `symbol` running.
     */
    method UnionProductions(symbol: Symbol, active: set<Symbol>) returns (first: set<Symbol>, diverged: bool)
      requires Valid()
      requires ActiveOk(active)
      requires symbol in grammar && symbol !in terminals && symbol != EPSILON
      requires symbol !in active && symbol !in firstSets
      modifies this`firstSets
      decreases |grammar.Keys - active|, 2
      ensures Valid() && Extends(old(firstSets), firstSets)
      ensures forall k :: k in firstSets && k !in old(firstSets) ==> k !in active && k != symbol
      ensures !diverged ==> first == UnionFirst(firstSets, symbol, grammar[symbol])
      ensures !diverged ==> first <= terminals + {EPSILON}
      ensures !diverged ==> ProductionsClosed(grammar, terminals, firstSets, symbol, grammar[symbol])
      ensures grammar.Keys - {symbol} <= old(firstSets).Keys ==>
        !diverged && grammar.Keys - {symbol} <= firstSets.Keys
      ensures diverged ==> ReachesReentry(grammar, symbol, active)
      ensures HeadReentry(grammar, terminals, old(firstSets), symbol, active) ==> diverged
    {
      diverged := false;
      var prods := grammar[symbol];
      first := {};
      var j := 0;
      while j < |prods|
        invariant 0 <= j <= |prods|
        invariant Valid() && Extends(old(firstSets), firstSets)
        invariant forall k :: k in firstSets && k !in old(firstSets) ==> k !in active && k != symbol
        invariant first == UnionFirst(firstSets, symbol, prods[..j])
        invariant first <= terminals + {EPSILON}
        invariant ProductionsClosed(grammar, terminals, firstSets, symbol, prods[..j])
        invariant grammar.Keys - {symbol} <= old(firstSets).Keys ==> grammar.Keys - {symbol} <= firstSets.Keys
        invariant j == 0 ==> firstSets == old(firstSets)
        invariant j > 0 ==> !HeadReentry(grammar, terminals, old(firstSets), symbol, active)
      {
        ghost var before := firstSets;
        var contribution, d, via := ScanProduction(symbol, prods[j], active);
        if d {
          diverged := true;
          assert prods[j] in grammar[symbol];
          ReentryStep(grammar, symbol, via, active);
          return;
        }
        FirstTableKeysDefined(grammar, terminals, firstSets);
        UnionFirstStable(grammar, terminals, before, firstSets, symbol, prods[..j]);
        UnionGrows(grammar, terminals, firstSets, symbol, prods, j);
        first := first + contribution;
        j := j + 1;
      }
      assert prods[..j] == prods;
    }


    /** The scan of `production` asks first for a symbol whose first-production chain re-enters. */
    ghost predicate HeadReenters(m: Table, production: Production, symbol: Symbol, active: set<Symbol>)
      reads this
    {
      |UpTo(production, symbol)| > 0 &&
      HeadReentry(grammar, terminals, m, UpTo(production, symbol)[0], active + {symbol})
    }

    /**
     * What one production of `symbol` adds to FIRST(symbol): EPSILON for an
     * empty production; otherwise the FIRST sets of its symbols without
     * EPSILON, scanned left to right until `symbol` itself or a symbol whose
     * FIRST lacks EPSILON, plus EPSILON unless the scan stopped at the latter.
     */
    method ScanProduction(symbol: Symbol, production: Production, active: set<Symbol>)
      returns (contribution: set<Symbol>, diverged: bool, ghost via: Symbol)
      requires Valid()
      requires symbol in grammar && symbol !in terminals && symbol != EPSILON
      requires symbol !in active && symbol !in firstSets
      requires ActiveOk(active)
      modifies this`firstSets
      decreases |grammar.Keys - active|, 1
      ensures Valid() && Extends(old(firstSets), firstSets)
      ensures forall k :: k in firstSets && k !in old(firstSets) ==> k !in active && k != symbol
      ensures !diverged ==> contribution == ProductionFirst(firstSets, symbol, production)
      ensures !diverged ==> ClosedSeq(grammar, terminals, firstSets, UpTo(production, symbol))
      ensures !diverged ==> contribution <= terminals + {EPSILON}
      ensures grammar.Keys - {symbol} <= old(firstSets).Keys ==> !diverged
      // a divergence comes from a symbol the scan asked for, whose requests re-enter
      ensures diverged ==>
        via in LeftCalls(grammar, UpTo(production, symbol)) && ReachesReentry(grammar, via, active + {symbol})
      ensures HeadReenters(old(firstSets), production, symbol, active) ==> diverged
    {
      contribution, diverged, via := {}, false, symbol;
      ghost var headReenters := HeadReenters(firstSets, production, symbol, active);
      if |production| == 0 {
        contribution := {EPSILON};
        return;
      }
      var allDeriveEpsilon := true;
      var i := 0;
      while i < |production|
        invariant 0 <= i <= |production|
        invariant Valid() && Extends(old(firstSets), firstSets)
        invariant forall k :: k in firstSets && k !in old(firstSets) ==> k !in active && k != symbol
        invariant symbol !in production[..i]
        invariant NullableKnown(grammar, terminals, firstSets, production[..i])
        invariant contribution == Heads(firstSets, production[..i])
        invariant allDeriveEpsilon
        invariant grammar.Keys - {symbol} <= old(firstSets).Keys ==> grammar.Keys - {symbol} <= firstSets.Keys
        invariant i == 0 ==> firstSets == old(firstSets)
        invariant i > 0 ==> !headReenters
      {
        var sym := production[i];
        if sym == symbol {
          ScanStopsAtSelf(grammar, terminals, firstSets, production, symbol, i);
          break;
        }
        var f, d := ScanSymbol(symbol, production, active, i);
        if d {
          diverged, via := true, sym;
          return;
        }
        if i == 0 {
          UpToHead(production, symbol);
        }
        contribution := contribution + (f - {EPSILON});
        if EPSILON !in f {
          allDeriveEpsilon := false;
          ScanStopsAtNonNullable(grammar, terminals, firstSets, production, symbol, i);
          break;
        }
        PrefixGrows(grammar, terminals, firstSets, production, i);
        i := i + 1;
      }
      if allDeriveEpsilon {
        contribution := contribution + {EPSILON};
      }
      if i == |production| {
        assert production[..i] == production;
        ScanReachesEnd(grammar, terminals, firstSets, production, symbol);
      }
      SeqFirstBounded(grammar, terminals, firstSets, UpTo(production, symbol));
    }
    /**
     * One step of the scan of `production`: FIRST of `production[i]`, asked
     * for while `symbol` is running. The prefix already scanned keeps what
     * it read.
     */
    method ScanSymbol(symbol: Symbol, production: Production, active: set<Symbol>, i: nat)
      returns (first: set<Symbol>, diverged: bool)
      requires Valid()
      requires symbol in grammar && symbol !in terminals && symbol != EPSILON
      requires symbol !in active && symbol !in firstSets
      requires ActiveOk(active)
      requires i < |production| && production[i] != symbol && symbol !in production[..i]
      requires NullableKnown(grammar, terminals, firstSets, production[..i])
      modifies this`firstSets
      decreases |grammar.Keys - active|, 0
      ensures Valid() && Extends(old(firstSets), firstSets)
      ensures forall k :: k in firstSets && k !in old(firstSets) ==> k !in active && k != symbol
      ensures !diverged ==>
        first == Lookup(firstSets, production[i]) && Known(grammar, terminals, firstSets, production[i])
      ensures !diverged ==> first <= terminals + {EPSILON}
      ensures !diverged ==> NullableKnown(grammar, terminals, firstSets, production[..i])
      ensures !diverged ==> Heads(firstSets, production[..i]) == Heads(old(firstSets), production[..i])
      ensures grammar.Keys - {symbol} <= old(firstSets).Keys ==>
        !diverged && grammar.Keys - {symbol} <= firstSets.Keys
      ensures diverged ==>
        production[i] in LeftCalls(grammar, UpTo(production, symbol)) &&
        ReachesReentry(grammar, production[i], active + {symbol})
      ensures HeadReentry(grammar, terminals, old(firstSets), production[i], active + {symbol}) ==> diverged
    {
      ScanCalls(grammar, terminals, firstSets, production, symbol, i);
      CardinalityDrop(grammar.Keys, active, symbol);
      var undefinedSymbol;
      first, undefinedSymbol, diverged := ComputeFirst(production[i], active + {symbol});
      if !diverged {
        FirstTableKeysDefined(grammar, terminals, firstSets);
        PrefixStable(grammar, terminals, old(firstSets), firstSets, production[..i]);
      }
    }

    /**
     * FIRST of the suffix of `sequence` that starts at `start`: scans left to
     * right, adding each symbol's FIRST without EPSILON, stopping after the
     * first symbol whose FIRST lacks EPSILON; EPSILON is added when there is
     * no such symbol (so an empty suffix gives {EPSILON}).
     */
    method FirstOfSequence(sequence: seq<Symbol>, start: nat) returns (result: set<Symbol>, diverged: bool)
      requires Valid()
      modifies this`firstSets
      ensures Valid() && Extends(old(firstSets), firstSets)
      ensures start >= |sequence| ==> result == {EPSILON} && !diverged && firstSets == old(firstSets)
      ensures !diverged && start <= |sequence| ==>
        result == SeqFirst(firstSets, sequence[start..]) &&
        ClosedSeq(grammar, terminals, firstSets, sequence[start..])
      ensures !diverged ==> result <= terminals + {EPSILON}
      ensures grammar.Keys <= old(firstSets).Keys ==> !diverged
      ensures diverged ==> LeftCyclic(grammar)
    {
      result, diverged := {}, false;
      ghost var rest := if start <= |sequence| then sequence[start..] else [];
      var allDeriveEpsilon := true;
      var i := start;
      while i < |sequence|
        invariant start <= i <= start + |rest|
        invariant Valid() && Extends(old(firstSets), firstSets)
        invariant NullableKnown(grammar, terminals, firstSets, rest[..i - start])
        invariant result == Heads(firstSets, rest[..i - start])
        invariant allDeriveEpsilon
        invariant start >= |sequence| ==> firstSets == old(firstSets)
        invariant grammar.Keys <= old(firstSets).Keys ==> grammar.Keys <= firstSets.Keys
      {
        var sym := sequence[i];
        assert sym == rest[i - start];
        ghost var before := firstSets;
        var f, _, d := ComputeFirst(sym, {});
        if d {
          diverged := true;
          ReentryCycle(grammar, sym);
          return;
        }
        FirstTableKeysDefined(grammar, terminals, firstSets);
        PrefixStable(grammar, terminals, before, firstSets, rest[..i - start]);
        result := result + (f - {EPSILON});
        if EPSILON !in f {
          allDeriveEpsilon := false;
          ScanStops(grammar, terminals, firstSets, rest, i - start);
          break;
        }
        PrefixGrows(grammar, terminals, firstSets, rest, i - start);
        i := i + 1;
      }
      if allDeriveEpsilon {
        result := result + {EPSILON};
      }
      if i - start == |rest| {
        assert rest[..i - start] == rest;
        ScanEnds(grammar, terminals, firstSets, rest);
      }
      SeqFirstBounded(grammar, terminals, firstSets, rest);
    }

    /**
     * The FOLLOW update for the occurrence of `production[i]` in a production
     * of `lhs`, when that symbol is a non-terminal: FIRST of the rest of the
     * production without EPSILON, and FOLLOW(lhs) when the rest can vanish,
     * are added to its FOLLOW set. `grew` tells whether that set became
     * larger; when it did not, both FOLLOW rules of the occurrence hold.
     */
    method RelaxOccurrence(lhs: Symbol, production: Production, i: nat, ghost f0: Table)
      returns (grew: bool, diverged: bool)
      requires Valid()
      requires lhs in grammar && production in grammar[lhs] && i < |production|
      requires FollowForced(grammar, nonTerminals, firstSets, startSymbol, f0, followSets)
      modifies this`firstSets, this`followSets
      ensures Valid() && Extends(old(firstSets), firstSets)
      ensures FollowWithin(old(followSets), followSets)
      ensures FollowForced(grammar, nonTerminals, firstSets, startSymbol, f0, followSets)
      // a terminal or EPSILON at `i`, or a divergence, changes no FOLLOW set
      ensures production[i] !in nonTerminals ==> !diverged && followSets == old(followSets)
      ensures diverged ==> followSets == old(followSets)
      // otherwise FOLLOW(production[i]) gains FIRST of the rest without EPSILON, and FOLLOW(lhs) when the rest can vanish
      ensures !diverged && production[i] in nonTerminals ==>
        followSets == old(followSets)[production[i] := Relaxed(firstSets, old(followSets), lhs, production, i)]
      // `grew` reports exactly a strict growth
      ensures grew <==> Lookup(old(followSets), production[i]) < Lookup(followSets, production[i])
      ensures grew <==> !SameFollow(old(followSets), followSets)
      ensures !diverged && !grew ==>
        OccurrenceRule(nonTerminals, firstSets, old(followSets), lhs, production, i) &&
        (production[i] in nonTerminals ==> ClosedSeq(grammar, terminals, firstSets, production[i + 1..]))
      ensures !diverged && production[i] in nonTerminals ==> ClosedSeq(grammar, terminals, firstSets, production[i + 1..])
      ensures grammar.Keys <= old(firstSets).Keys ==> !diverged
      ensures diverged ==> LeftCyclic(grammar)
    {
      grew, diverged := false, false;
      var symbol := production[i];
      if symbol !in nonTerminals {
        return;
      }
      var oldFollow := Lookup(followSets, symbol);
      var follows, d := RelaxedFollow(lhs, production, i, f0);
      if d {
        diverged := true;
        return;
      }
      ForcedStep(grammar, nonTerminals, firstSets, startSymbol, f0, followSets, lhs, production, i, follows);
      UpdateBounded(terminals, followSets, symbol, follows);
      WriteGrows(followSets, symbol, follows);
      RelaxedRule(nonTerminals, firstSets, followSets, lhs, production, i);
      followSets := followSets[symbol := follows];
      grew := |follows| > |oldFollow|;
    }

    /**
     * The new FOLLOW set of the non-terminal `production[i]`: its FOLLOW
     * set, FIRST of the rest of the production without EPSILON, and
     * FOLLOW(lhs) when that rest can vanish. Only FIRST entries are recorded.
     */
    method RelaxedFollow(lhs: Symbol, production: Production, i: nat, ghost f0: Table)
      returns (follows: set<Symbol>, diverged: bool)
      requires Valid()
      requires i < |production|
      requires FollowForced(grammar, nonTerminals, firstSets, startSymbol, f0, followSets)
      modifies this`firstSets
      ensures Valid() && Extends(old(firstSets), firstSets)
      ensures FollowForced(grammar, nonTerminals, firstSets, startSymbol, f0, followSets)
      ensures !diverged ==> follows == Relaxed(firstSets, followSets, lhs, production, i)
      ensures !diverged ==> ClosedSeq(grammar, terminals, firstSets, production[i + 1..])
      ensures !diverged ==> follows <= terminals + {END_MARKER}
      ensures grammar.Keys <= old(firstSets).Keys ==> !diverged
      ensures diverged ==> LeftCyclic(grammar)
    {
      follows, diverged := {}, false;
      var oldFollow := Lookup(followSets, production[i]);
      var lhsFollow := Lookup(followSets, lhs);
      if i + 1 < |production| {
        ghost var before := firstSets;
        var fb, d := FirstOfSequence(production, i + 1);
        ForcedStable(grammar, nonTerminals, before, firstSets, startSymbol, f0, followSets);
        if d {
          diverged := true;
          return;
        }
        follows := oldFollow + (fb - {EPSILON});
        if EPSILON in fb {
          follows := follows + lhsFollow;
        }
      } else {
        assert production[i + 1..] == [];
        follows := oldFollow + lhsFollow;
      }
    }

    /**
     * One FOLLOW relaxation over the occurrences of non-terminals in one
     * production of `lhs`. `grew` tells whether some FOLLOW set became
     * larger; when none did, every FOLLOW rule of the production holds.
     */
    method RelaxProduction(lhs: Symbol, production: Production, ghost f0: Table) returns (grew: bool, diverged: bool)
      requires Valid()
      requires lhs in grammar && production in grammar[lhs]
      requires FollowForced(grammar, nonTerminals, firstSets, startSymbol, f0, followSets)
      modifies this`firstSets, this`followSets
      ensures Valid() && Extends(old(firstSets), firstSets)
      ensures FollowWithin(old(followSets), followSets)
      ensures FollowForced(grammar, nonTerminals, firstSets, startSymbol, f0, followSets)
      ensures grew <==> !SameFollow(old(followSets), followSets)
      ensures !diverged && !grew ==>
        Settled(grammar, terminals, nonTerminals, firstSets, old(followSets), lhs, production)
      // every occurrence of a non-terminal has been relaxed against the table the call started from
      ensures !diverged ==>
        ProductionRelaxed(grammar, terminals, nonTerminals, firstSets, old(followSets), followSets, lhs, production)
      ensures grammar.Keys <= old(firstSets).Keys ==> !diverged
      ensures diverged ==> LeftCyclic(grammar)
    {
      grew, diverged := false, false;
      var i := 0;
      while i < |production|
        invariant 0 <= i <= |production|
        invariant Valid() && Extends(old(firstSets), firstSets)
        invariant FollowWithin(old(followSets), followSets)
        invariant grew <==> !SameFollow(old(followSets), followSets)
        invariant RelaxedUpTo(grammar, terminals, nonTerminals, firstSets, old(followSets), followSets, lhs, production, i)
        invariant FollowForced(grammar, nonTerminals, firstSets, startSymbol, f0, followSets)
        invariant grammar.Keys <= old(firstSets).Keys ==> grammar.Keys <= firstSets.Keys
      {
        ghost var before, beforeFollow := firstSets, followSets;
        var g, d := RelaxOccurrence(lhs, production, i, f0);
        SameFollowChain(old(followSets), beforeFollow, followSets);
        if g {
          grew := true;
        }
        if d {
          diverged := true;
          return;
        }
        FirstTableKeysDefined(grammar, terminals, firstSets);
        RelaxedUpToStep(grammar, terminals, nonTerminals, before, firstSets, old(followSets),
                        beforeFollow, followSets, lhs, production, i);
        i := i + 1;
      }
      if !grew {
        RelaxedSettled(grammar, terminals, nonTerminals, firstSets, old(followSets), followSets, lhs, production);
      }
    }

    /**
     * The part of a FOLLOW pass that relaxes every production of `order[a]`;
     * `start` is the FOLLOW table the pass started from and `changed` says
     * whether the pass has changed it so far.
     */
    method RelaxLhs(a: nat, ghost f0: Table, ghost start: Table, changedIn: bool) returns (changed: bool, diverged: bool)
      requires Valid() && a < |order|
      requires FollowWithin(start, followSets)
      requires changedIn <==> !SameFollow(start, followSets)
      requires OrderRelaxed(grammar, terminals, nonTerminals, firstSets, start, followSets, order, a)
      requires FollowForced(grammar, nonTerminals, firstSets, startSymbol, f0, followSets)
      modifies this`firstSets, this`followSets
      ensures Valid() && Extends(old(firstSets), firstSets)
      ensures FollowWithin(start, followSets)
      ensures changed <==> !SameFollow(start, followSets)
      ensures !diverged && !changed ==> OrderSettled(grammar, terminals, nonTerminals, firstSets, start, order, a + 1)
      ensures !diverged ==> OrderRelaxed(grammar, terminals, nonTerminals, firstSets, start, followSets, order, a + 1)
      ensures FollowForced(grammar, nonTerminals, firstSets, startSymbol, f0, followSets)
      ensures grammar.Keys <= old(firstSets).Keys ==> !diverged && grammar.Keys <= firstSets.Keys
      ensures diverged ==> LeftCyclic(grammar)
    {
      changed, diverged := changedIn, false;
      var lhs := order[a];
      var productions := grammar[lhs];
      var j := 0;
      while j < |productions|
        invariant 0 <= j <= |productions|
        invariant Valid() && Extends(old(firstSets), firstSets)
        invariant FollowWithin(start, followSets)
        invariant changed <==> !SameFollow(start, followSets)
        invariant OrderRelaxed(grammar, terminals, nonTerminals, firstSets, start, followSets, order, a)
        invariant LhsRelaxedUpTo(grammar, terminals, nonTerminals, firstSets, start, followSets, lhs, j)
        invariant FollowForced(grammar, nonTerminals, firstSets, startSymbol, f0, followSets)
        invariant grammar.Keys <= old(firstSets).Keys ==> grammar.Keys <= firstSets.Keys
      {
        ghost var before, beforeFollow := firstSets, followSets;
        var grew, d := RelaxProduction(lhs, productions[j], f0);
        SameFollowChain(start, beforeFollow, followSets);
        if grew {
          changed := true;
        }
        if d {
          diverged := true;
          return;
        }
        FirstTableKeysDefined(grammar, terminals, firstSets);
        LhsRelaxedStep(grammar, terminals, nonTerminals, before, firstSets, start, beforeFollow, followSets, order, a, j);
        j := j + 1;
      }
      if !changed {
        OrderRelaxedSettled(grammar, terminals, nonTerminals, firstSets, start, followSets, order, a + 1);
      }
    }

    /**
     * One pass of the FOLLOW computation over every production of every
     * non-terminal, in the order the grammar was read.
     */
    method FollowPass(ghost f0: Table) returns (changed: bool, diverged: bool)
      requires Valid()
      requires FollowForced(grammar, nonTerminals, firstSets, startSymbol, f0, followSets)
      modifies this`firstSets, this`followSets
      ensures Valid() && Extends(old(firstSets), firstSets)
      ensures FollowWithin(old(followSets), followSets)
      ensures FollowForced(grammar, nonTerminals, firstSets, startSymbol, f0, followSets)
      ensures changed <==> !SameFollow(old(followSets), followSets)
      ensures !diverged && !changed ==> FollowFixpoint(grammar, nonTerminals, firstSets, old(followSets))
      ensures !diverged && !changed ==> FollowReadsKnown(grammar, terminals, nonTerminals, firstSets)
      // every occurrence in the grammar has been relaxed against the table the pass started from
      ensures !diverged ==> PassRelaxed(grammar, terminals, nonTerminals, firstSets, old(followSets), followSets)
      ensures grammar.Keys <= old(firstSets).Keys ==> !diverged
      ensures diverged ==> LeftCyclic(grammar)
    {
      changed, diverged := false, false;
      var a := 0;
      while a < |order|
        invariant 0 <= a <= |order|
        invariant Valid() && Extends(old(firstSets), firstSets)
        invariant FollowWithin(old(followSets), followSets)
        invariant changed <==> !SameFollow(old(followSets), followSets)
        invariant OrderRelaxed(grammar, terminals, nonTerminals, firstSets, old(followSets), followSets, order, a)
        invariant FollowForced(grammar, nonTerminals, firstSets, startSymbol, f0, followSets)
        invariant grammar.Keys <= old(firstSets).Keys ==> grammar.Keys <= firstSets.Keys
      {
        changed, diverged := RelaxLhs(a, f0, old(followSets), changed);
        if diverged {
          return;
        }
        a := a + 1;
      }
      forall lhs, j | lhs in grammar && 0 <= j < |grammar[lhs]|
        ensures ProductionRelaxed(grammar, terminals, nonTerminals, firstSets, old(followSets), followSets, lhs, grammar[lhs][j])
      {
        var b :| 0 <= b < |order| && order[b] == lhs;
        assert LhsRelaxed(grammar, terminals, nonTerminals, firstSets, old(followSets), followSets, order[b]);
      }
      if !changed {
        PassRelaxedFixpoint(grammar, terminals, nonTerminals, firstSets, old(followSets), followSets);
      }
    }

    /**
     * FOLLOW of every non-terminal: seeds END_MARKER into FOLLOW of the start
     * symbol, then repeats passes until one pass changes nothing or
     * MAX_PASSES passes have run; `capWarning` is the diagnostic for a run
     * that used all MAX_PASSES passes.
     */
    method ComputeFollow() returns (passes: nat, converged: bool, capWarning: bool, diverged: bool)
      requires Valid()
      modifies this`firstSets, this`followSets
      ensures Valid() && Extends(old(firstSets), firstSets)
      ensures FollowWithin(old(followSets), followSets)
      ensures END_MARKER in Lookup(followSets, startSymbol)
      ensures forall x :: EPSILON !in Lookup(followSets, x)
      ensures !diverged ==> 1 <= passes <= MAX_PASSES
      ensures !diverged ==> (capWarning <==> passes == MAX_PASSES)
      ensures !diverged && !converged ==> passes == MAX_PASSES
      ensures !diverged && converged ==> FollowFixpoint(grammar, nonTerminals, firstSets, followSets)
      ensures !diverged && converged ==> FollowReadsKnown(grammar, terminals, nonTerminals, firstSets)
      ensures FollowForced(grammar, nonTerminals, firstSets, startSymbol, old(followSets), followSets)
      ensures grammar.Keys <= old(firstSets).Keys ==> !diverged
      // every pass but the last adds an element, and there is room for only so many
      ensures !diverged ==> passes <= (|nonTerminals| + 1) * (|terminals| + 1)
      ensures !diverged && (|nonTerminals| + 1) * (|terminals| + 1) <= MAX_PASSES ==> converged
      ensures !diverged ==> passes <= FollowTotal(followSets, nonTerminals + {startSymbol})
      // the cap stops the passes only after the FOLLOW sets have grown past MAX_PASSES elements
      ensures !diverged && !converged ==> MAX_PASSES < FollowTotal(followSets, nonTerminals + {startSymbol})
      ensures diverged ==> LeftCyclic(grammar)
    {
      ghost var keys := nonTerminals + {startSymbol};
      ForcedSeed(grammar, nonTerminals, firstSets, startSymbol, followSets);
      followSets := followSets[startSymbol := Lookup(followSets, startSymbol) + {END_MARKER}];
      TotalAtLeast(followSets, keys, startSymbol);
      converged, diverged, capWarning := false, false, false;
      var changed := true;
      passes := 0;
      while changed && passes < MAX_PASSES
        invariant 0 <= passes <= MAX_PASSES
        invariant passes == 0 ==> changed
        invariant passes <= FollowTotal(followSets, keys)
        invariant changed ==> passes < FollowTotal(followSets, keys)
        invariant Valid() && Extends(old(firstSets), firstSets)
        invariant FollowWithin(old(followSets), followSets)
        invariant END_MARKER in Lookup(followSets, startSymbol)
        invariant !changed ==> FollowFixpoint(grammar, nonTerminals, firstSets, followSets)
        invariant !changed ==> FollowReadsKnown(grammar, terminals, nonTerminals, firstSets)
        invariant FollowForced(grammar, nonTerminals, firstSets, startSymbol, old(followSets), followSets)
        invariant grammar.Keys <= old(firstSets).Keys ==> grammar.Keys <= firstSets.Keys
      {
        passes := passes + 1;
        ghost var passStart := followSets;
        var c, d := FollowPass(old(followSets));
        if d {
          diverged := true;
          return;
        }
        changed := c;
        ChangeGrowsTotal(passStart, followSets, keys);
        if !changed {
          FixpointSameFollow(grammar, nonTerminals, firstSets, passStart, followSets);
        }
      }
      converged := !changed;
      capWarning := passes == MAX_PASSES;
      TotalCapacity(terminals, nonTerminals, startSymbol, followSets);
    }

    /**
     * The whole analysis: FIRST of every non-terminal (in no particular
     * order), then FOLLOW. A divergence of the FIRST phase stops the analysis
     * before FOLLOW is touched.
     */
    method CalculateAll() returns (passes: nat, converged: bool, capWarning: bool, diverged: bool)
      requires Valid()
      modifies this`firstSets, this`followSets
      ensures Valid() && Extends(old(firstSets), firstSets)
      ensures diverged ==> followSets == old(followSets)
      ensures !diverged ==> forall nt :: nt in nonTerminals ==> Known(grammar, terminals, firstSets, nt)
      ensures !diverged ==> FollowWithin(old(followSets), followSets)
      ensures !diverged ==> END_MARKER in Lookup(followSets, startSymbol)
      ensures !diverged ==> 1 <= passes <= MAX_PASSES && (capWarning <==> passes == MAX_PASSES)
      ensures !diverged && !converged ==> passes == MAX_PASSES
      ensures !diverged && converged ==> FollowFixpoint(grammar, nonTerminals, firstSets, followSets)
      ensures !diverged && converged ==> FollowReadsKnown(grammar, terminals, nonTerminals, firstSets)
      ensures !diverged ==> FollowForced(grammar, nonTerminals, firstSets, startSymbol, old(followSets), followSets)
      ensures !diverged ==> passes <= (|nonTerminals| + 1) * (|terminals| + 1)
      ensures !diverged && (|nonTerminals| + 1) * (|terminals| + 1) <= MAX_PASSES ==> converged
      ensures !diverged ==> passes <= FollowTotal(followSets, nonTerminals + {startSymbol})
      ensures !diverged && !converged ==> MAX_PASSES < FollowTotal(followSets, nonTerminals + {startSymbol})
      // only a cycle of FIRST requests makes the analysis diverge ...
      ensures diverged ==> LeftCyclic(grammar)
      // ... and one that every non-terminal enters through first productions does
      ensures nonTerminals != {} && (forall nt :: nt in nonTerminals ==> HeadReentry(grammar, terminals, old(firstSets), nt, {})) ==>
        diverged
    {
      passes, converged, capWarning, diverged := 0, false, false, false;
      ghost var allReenter := forall nt :: nt in nonTerminals ==> HeadReentry(grammar, terminals, firstSets, nt, {});
      var pending := nonTerminals;
      while pending != {}
        invariant pending <= nonTerminals
        invariant Valid() && Extends(old(firstSets), firstSets)
        invariant followSets == old(followSets)
        invariant forall nt :: nt in nonTerminals && nt !in pending ==> Known(grammar, terminals, firstSets, nt)
        invariant allReenter ==> pending == nonTerminals && firstSets == old(firstSets)
        decreases pending
      {
        var nt :| nt in pending;
        var _, _, d := ComputeFirst(nt, {});
        if d {
          diverged := true;
          ReentryCycle(grammar, nt);
          return;
        }
        pending := pending - {nt};
      }
      assert grammar.Keys <= firstSets.Keys;
      passes, converged, capWarning, diverged := ComputeFollow();
    }
  }
}

=== FILE: examples.dfy ===
/**
 * Worked grammars: what any FIRST table the calculator can build, and any
 * FOLLOW table it converges to, must hold for them.
 *
 * As the grammar reader stores them, EPSILON alternatives are productions
 * made of the single symbol EPSILON (empty productions are never stored).
 */
module Examples {
  import opened Grammar
  import opened FirstFollow

  /** A sequence led by a symbol whose FIRST lacks EPSILON starts with just that FIRST. */
  lemma SeqFirstOfHead(m: Table, s: seq<Symbol>)
    requires s != [] && EPSILON !in Lookup(m, s[0])
    ensures SeqFirst(m, s) == Lookup(m, s[0])
  {
  }

  lemma UnionOfOne(m: Table, a: Symbol, prods: seq<Production>)
    requires |prods| == 1
    ensures UnionFirst(m, a, prods) == ProductionFirst(m, a, prods[0])
  {
    assert prods[..0] == [];
  }

  lemma UnionOfTwo(m: Table, a: Symbol, prods: seq<Production>)
    requires |prods| == 2
    ensures UnionFirst(m, a, prods) == ProductionFirst(m, a, prods[0]) + ProductionFirst(m, a, prods[1])
  {
    UnionOfOne(m, a, prods[..1]);
  }

  // ---------------------------------------------------------------------
  // A -> A a | b
  // ---------------------------------------------------------------------

  function LeftRecursive(): Rules {
    map["A" := [["A", "a"], ["b"]]]
  }

  /**
   * The scan of A -> A a stops at the self-reference before any symbol is
   * looked at, so that production contributes EPSILON: FIRST(A) is
   * {b, EPSILON}, although A derives no empty string.
   */
  lemma LeftRecursionAddsEpsilon(m: Table)
    requires FirstTableValid(LeftRecursive(), {"a", "b"}, m)
    requires "A" in m
    ensures m["A"] == {"b", EPSILON}
  {
    var g, t := LeftRecursive(), {"a", "b"};
    assert EntryConsistent(g, t, m, "A");
    assert UpTo(["A", "a"], "A") == [];
    assert UpTo(["b"], "A") == ["b"] by {
      assert UpTo(["b"], "A") == ["b"] + UpTo([], "A");
    }
    assert ClosedSeq(g, t, m, UpTo(g["A"][1], "A"));
    assert "b" in m && EntryConsistent(g, t, m, "b");
    SeqFirstOfHead(m, ["b"]);
    UnionOfTwo(m, "A", g["A"]);
  }

  /** The terminals of A -> A a | b are a and b. */
  lemma LeftRecursiveTerminals()
    ensures forall s :: IsTerminalOf(LeftRecursive(), {"A"}, s) <==> s in {"a", "b"}
  {
    var g := LeftRecursive();
    assert g["A"] == [["A", "a"], ["b"]];
    assert "a" in g["A"][0] && "b" in g["A"][1];
  }

  /**
   * A fresh calculator for A -> A a | b finds FIRST(A) = {b, EPSILON}
   * without diverging.
   */
  method AnalyseLeftRecursive() returns (first: set<Symbol>, diverged: bool)
    ensures !diverged && first == {"b", EPSILON}
  {
    assert OrderOfKeys(LeftRecursive(), ["A"]);
    var c := new FirstFollowCalculator(LeftRecursive(), ["A"], {"A"}, "A");
    LeftRecursiveTerminals();
    assert c.terminals == {"a", "b"};
    var undefinedSymbol;
    assert c.grammar.Keys - {"A"} == {};
    first, undefinedSymbol, diverged := c.ComputeFirst("A", {});
    LeftRecursionAddsEpsilon(c.firstSets);
  }

  // ---------------------------------------------------------------------
  // The expression grammar
  //   E -> T E'      E' -> + T E' | ε
  //   T -> F T'      T' -> * F T' | ε
  //   F -> ( E ) | id
  // ---------------------------------------------------------------------

  function Expr(): Rules {
    map[
      "E" := [["T", "E'"]],
      "E'" := [["+", "T", "E'"], [EPSILON]],
      "T" := [["F", "T'"]],
      "T'" := [["*", "F", "T'"], [EPSILON]],
      "F" := [["(", "E", ")"], ["id"]]
    ]
  }

  function ExprNonTerminals(): set<Symbol> {
    {"E", "E'", "T", "T'", "F"}
  }

  function ExprTerminals(): set<Symbol> {
    {"+", "*", "(", ")", "id"}
  }

  /** The productions of each non-terminal of the expression grammar. */
  lemma ExprShape()
    ensures ExprNonTerminals() == Expr().Keys
    ensures Expr()["E"] == [["T", "E'"]] && Expr()["T"] == [["F", "T'"]]
    ensures Expr()["E'"] == [["+", "T", "E'"], [EPSILON]]
    ensures Expr()["T'"] == [["*", "F", "T'"], [EPSILON]]
    ensures Expr()["F"] == [["(", "E", ")"], ["id"]]
  {
  }

  /** A terminal or EPSILON with an entry in a valid table is its own FIRST. */
  lemma TerminalEntry(g: Rules, t: set<Symbol>, m: Table, x: Symbol)
    requires FirstTableValid(g, t, m)
    requires x in t || x == EPSILON
    requires x in m
    ensures m[x] == {x}
  {
    assert EntryConsistent(g, t, m, x);
  }

  /**
   * A non-terminal whose two productions are each led by a terminal has
   * those two terminals as FIRST.
   */
  lemma TwoTerminalsFirst(g: Rules, t: set<Symbol>, m: Table, nt: Symbol)
    requires FirstTableValid(g, t, m)
    requires nt in m && nt !in t && nt != EPSILON
    requires nt in g && |g[nt]| == 2 && g[nt][0] != [] && g[nt][1] != []
    requires g[nt][0][0] in t && g[nt][1][0] in t && EPSILON !in t
    ensures m[nt] == {g[nt][0][0], g[nt][1][0]}
  {
    var p0, p1 := g[nt][0], g[nt][1];
    assert EntryConsistent(g, t, m, nt);
    assert UpTo(p0, nt) == [p0[0]] + UpTo(p0[1..], nt);
    assert UpTo(p1, nt) == [p1[0]] + UpTo(p1[1..], nt);
    assert ClosedSeq(g, t, m, UpTo(p0, nt)) && ClosedSeq(g, t, m, UpTo(p1, nt));
    TerminalEntry(g, t, m, p0[0]);
    TerminalEntry(g, t, m, p1[0]);
    SeqFirstOfHead(m, UpTo(p0, nt));
    SeqFirstOfHead(m, UpTo(p1, nt));
    UnionOfTwo(m, nt, g[nt]);
  }

  /**
   * A non-terminal whose first production is led by a terminal `x` and whose
   * second is the EPSILON alternative has FIRST {x, EPSILON}.
   */
  lemma TerminalOrEpsilonFirst(g: Rules, t: set<Symbol>, m: Table, nt: Symbol)
    requires FirstTableValid(g, t, m)
    requires nt in m && nt !in t && nt != EPSILON
    requires nt in g && |g[nt]| == 2 && g[nt][0] != [] && g[nt][1] == [EPSILON]
    requires g[nt][0][0] in t && EPSILON !in t
    ensures m[nt] == {g[nt][0][0], EPSILON}
  {
    var p0, p1 := g[nt][0], g[nt][1];
    assert EntryConsistent(g, t, m, nt);
    assert UpTo(p0, nt) == [p0[0]] + UpTo(p0[1..], nt);
    assert UpTo(p1, nt) == p1 by {
      assert UpTo(p1, nt) == [EPSILON] + UpTo([], nt);
    }
    assert ClosedSeq(g, t, m, UpTo(p0, nt)) && ClosedSeq(g, t, m, UpTo(p1, nt));
    TerminalEntry(g, t, m, p0[0]);
    TerminalEntry(g, t, m, EPSILON);
    SeqFirstOfHead(m, UpTo(p0, nt));
    assert SeqFirst(m, p1) == {EPSILON} by {
      assert p1[1..] == [];
    }
    UnionOfTwo(m, nt, g[nt]);
  }

  /**
   * A non-terminal with one production, led by a symbol other than itself
   * whose FIRST lacks EPSILON, has that symbol's FIRST.
   */
  lemma OneProductionFirst(g: Rules, t: set<Symbol>, m: Table, nt: Symbol)
    requires FirstTableValid(g, t, m)
    requires nt in m && nt !in t && nt != EPSILON
    requires nt in g && |g[nt]| == 1 && g[nt][0] != [] && g[nt][0][0] != nt
    requires g[nt][0][0] in m && EPSILON !in m[g[nt][0][0]]
    ensures m[nt] == m[g[nt][0][0]]
  {
    var p := g[nt][0];
    assert EntryConsistent(g, t, m, nt);
    assert UpTo(p, nt) == [p[0]] + UpTo(p[1..], nt);
    SeqFirstOfHead(m, UpTo(p, nt));
    UnionOfOne(m, nt, g[nt]);
  }

  lemma ExprFirstF(m: Table)
    requires FirstTableValid(Expr(), ExprTerminals(), m) && "F" in m
    ensures m["F"] == {"(", "id"}
  {
    ExprShape();
    TwoTerminalsFirst(Expr(), ExprTerminals(), m, "F");
  }

  lemma ExprFirstT(m: Table)
    requires FirstTableValid(Expr(), ExprTerminals(), m) && "F" in m && "T" in m
    ensures m["T"] == {"(", "id"}
  {
    ExprFirstF(m);
    ExprShape();
    OneProductionFirst(Expr(), ExprTerminals(), m, "T");
  }

  lemma ExprFirstE(m: Table)
    requires FirstTableValid(Expr(), ExprTerminals(), m) && "F" in m && "T" in m && "E" in m
    ensures m["E"] == {"(", "id"}
  {
    ExprFirstT(m);
    ExprShape();
    OneProductionFirst(Expr(), ExprTerminals(), m, "E");
  }

  lemma ExprFirstTails(m: Table)
    requires FirstTableValid(Expr(), ExprTerminals(), m) && "E'" in m && "T'" in m
    ensures m["E'"] == {"+", EPSILON} && m["T'"] == {"*", EPSILON}
  {
    ExprShape();
    TerminalOrEpsilonFirst(Expr(), ExprTerminals(), m, "E'");
    TerminalOrEpsilonFirst(Expr(), ExprTerminals(), m, "T'");
  }

  /**
   * FIRST(F) = FIRST(T) = FIRST(E) = {(, id}, FIRST(E') = {+, EPSILON}
   * and FIRST(T') = {*, EPSILON}.
   */
  lemma ExprFirstSets(m: Table)
    requires FirstTableValid(Expr(), ExprTerminals(), m)
    requires "E" in m && "E'" in m && "T" in m && "T'" in m && "F" in m
    ensures m["F"] == {"(", "id"} && m["T"] == {"(", "id"} && m["E"] == {"(", "id"}
    ensures m["E'"] == {"+", EPSILON} && m["T'"] == {"*", EPSILON}
  {
    ExprFirstF(m);
    ExprFirstT(m);
    ExprFirstE(m);
    ExprFirstTails(m);
  }

  // ---------------------------------------------------------------------
  // FOLLOW of the expression grammar, with E as start symbol
  // ---------------------------------------------------------------------

  /** The FOLLOW table of the expression grammar. */
  function ExprFollow(): Table {
    map[
      "E" := {")", END_MARKER},
      "E'" := {")", END_MARKER},
      "T" := {"+", ")", END_MARKER},
      "T'" := {"+", ")", END_MARKER},
      "F" := {"*", "+", ")", END_MARKER}
    ]
  }

  /** FIRST of every suffix the FOLLOW rules of the expression grammar read. */
  lemma ExprSuffixFirst(m: Table)
    requires FirstTableValid(Expr(), ExprTerminals(), m)
    requires "E'" in m && "T'" in m && ")" in m
    ensures SeqFirst(m, []) == {EPSILON}
    ensures SeqFirst(m, ["E'"]) == {"+", EPSILON}
    ensures SeqFirst(m, ["T'"]) == {"*", EPSILON}
    ensures SeqFirst(m, [")"]) == {")"}
  {
    ExprFirstTails(m);
    TerminalEntry(Expr(), ExprTerminals(), m, ")");
    assert ["E'"][1..] == [] && ["T'"][1..] == [];
  }

  /** The FOLLOW sets of `ExprFollow()`. */
  lemma ExprFollowShape()
    ensures Lookup(ExprFollow(), "E") == {")", END_MARKER} && Lookup(ExprFollow(), "E'") == {")", END_MARKER}
    ensures Lookup(ExprFollow(), "T") == {"+", ")", END_MARKER} && Lookup(ExprFollow(), "T'") == {"+", ")", END_MARKER}
    ensures Lookup(ExprFollow(), "F") == {"*", "+", ")", END_MARKER}
  {
  }

  /**
   * The FOLLOW rules of a production `lhs -> head tail` of two non-terminals,
   * where FIRST(tail) is {t, EPSILON} (E -> T E' and T -> F T').
   */
  lemma RulesOfHeadTail(n: set<Symbol>, m: Table, f: Table, lhs: Symbol, head: Symbol, tail: Symbol, t: Symbol)
    requires head in n && tail in n && t != EPSILON
    requires SeqFirst(m, []) == {EPSILON} && SeqFirst(m, [tail]) == {t, EPSILON}
    ensures ProductionRules(n, m, f, lhs, [head, tail]) <==>
      t in Lookup(f, head) && Lookup(f, lhs) <= Lookup(f, head) && Lookup(f, lhs) <= Lookup(f, tail)
  {
    var p: Production := [head, tail];
    assert p[1..] == [tail] && p[2..] == [];
    assert OccurrenceRule(n, m, f, lhs, p, 0) <==> t in Lookup(f, head) && Lookup(f, lhs) <= Lookup(f, head);
    assert OccurrenceRule(n, m, f, lhs, p, 1) <==> Lookup(f, lhs) <= Lookup(f, tail);
  }

  /**
   * The FOLLOW rules of a production `lhs -> op nt lhs` led by a terminal,
   * where FIRST(lhs) is {op, EPSILON} (E' -> + T E' and T' -> * F T').
   */
  lemma RulesOfTail(n: set<Symbol>, m: Table, f: Table, lhs: Symbol, op: Symbol, nt: Symbol)
    requires op !in n && nt in n && op != EPSILON
    requires SeqFirst(m, []) == {EPSILON} && SeqFirst(m, [lhs]) == {op, EPSILON}
    ensures ProductionRules(n, m, f, lhs, [op, nt, lhs]) <==>
      op in Lookup(f, nt) && Lookup(f, lhs) <= Lookup(f, nt)
  {
    var p: Production := [op, nt, lhs];
    assert p[2..] == [lhs] && p[3..] == [];
    assert OccurrenceRule(n, m, f, lhs, p, 0);
    assert OccurrenceRule(n, m, f, lhs, p, 1) <==> op in Lookup(f, nt) && Lookup(f, lhs) <= Lookup(f, nt);
    assert OccurrenceRule(n, m, f, lhs, p, 2);
  }

  /** The FOLLOW rule of F -> ( E ), in any FOLLOW table `f`. */
  lemma RulesOfF(m: Table, f: Table)
    requires SeqFirst(m, [")"]) == {")"}
    ensures ProductionRules(ExprNonTerminals(), m, f, "F", ["(", "E", ")"]) <==> ")" in Lookup(f, "E")
  {
    var p: Production := ["(", "E", ")"];
    assert p[2..] == [")"];
    assert OccurrenceRule(ExprNonTerminals(), m, f, "F", p, 0);
    assert OccurrenceRule(ExprNonTerminals(), m, f, "F", p, 1) <==> ")" in Lookup(f, "E");
    assert OccurrenceRule(ExprNonTerminals(), m, f, "F", p, 2);
  }

  /** The productions F -> id, E' -> ε and T' -> ε hold no non-terminal. */
  lemma RulesOfTerminalsOnly(m: Table, f: Table, lhs: Symbol, p: Production)
    requires p in {["id"], [EPSILON]}
    ensures ProductionRules(ExprNonTerminals(), m, f, lhs, p)
  {
    assert OccurrenceRule(ExprNonTerminals(), m, f, lhs, p, 0);
  }

  /**
   * The FOLLOW rules of the whole expression grammar, given FIRST of the
   * suffixes they read.
   */
  lemma ExprRules(m: Table, f: Table)
    requires SeqFirst(m, []) == {EPSILON} && SeqFirst(m, ["E'"]) == {"+", EPSILON}
    requires SeqFirst(m, ["T'"]) == {"*", EPSILON} && SeqFirst(m, [")"]) == {")"}
    ensures FollowFixpoint(Expr(), ExprNonTerminals(), m, f) <==>
      "+" in Lookup(f, "T") && "*" in Lookup(f, "F") && ")" in Lookup(f, "E") &&
      Lookup(f, "E") <= Lookup(f, "T") && Lookup(f, "E") <= Lookup(f, "E'") &&
      Lookup(f, "T") <= Lookup(f, "F") && Lookup(f, "T") <= Lookup(f, "T'") &&
      Lookup(f, "E'") <= Lookup(f, "T") && Lookup(f, "T'") <= Lookup(f, "F")
  {
    var g := Expr();
    ExprShape();
    var n := ExprNonTerminals();
    RulesOfHeadTail(n, m, f, "E", "T", "E'", "+");
    RulesOfHeadTail(n, m, f, "T", "F", "T'", "*");
    RulesOfTail(n, m, f, "E'", "+", "T");
    RulesOfTail(n, m, f, "T'", "*", "F");
    RulesOfF(m, f);
    RulesOfTerminalsOnly(m, f, "E'", [EPSILON]);
    RulesOfTerminalsOnly(m, f, "T'", [EPSILON]);
    RulesOfTerminalsOnly(m, f, "F", ["id"]);
    assert FollowFixpoint(g, ExprNonTerminals(), m, f) ==>
      ProductionRules(ExprNonTerminals(), m, f, "E", g["E"][0]) &&
      ProductionRules(ExprNonTerminals(), m, f, "T", g["T"][0]) &&
      ProductionRules(ExprNonTerminals(), m, f, "E'", g["E'"][0]) &&
      ProductionRules(ExprNonTerminals(), m, f, "T'", g["T'"][0]) &&
      ProductionRules(ExprNonTerminals(), m, f, "F", g["F"][0]);
  }

  /**
   * A FOLLOW table that obeys every rule, holds END_MARKER in FOLLOW(E) and
   * holds only forced elements, as the calculator's converged result from an
   * empty FOLLOW table does, is the textbook one: FOLLOW(E) = FOLLOW(E') =
   * {), $}, FOLLOW(T) = FOLLOW(T') = {+, ), $} and FOLLOW(F) = {*, +, ), $}.
   */
  lemma ExprFollowSets(m: Table, f: Table)
    requires FirstTableValid(Expr(), ExprTerminals(), m)
    requires "E'" in m && "T'" in m
    requires FollowReadsKnown(Expr(), ExprTerminals(), ExprNonTerminals(), m)
    requires FollowFixpoint(Expr(), ExprNonTerminals(), m, f)
    requires END_MARKER in Lookup(f, "E")
    requires FollowForced(Expr(), ExprNonTerminals(), m, "E", map[], f)
    ensures forall x :: Lookup(f, x) == Lookup(ExprFollow(), x)
  {
    var g, t := Expr(), ExprTerminals();
    ExprShape();
    assert g["F"][0][1] == "E" && g["F"][0][2..] == [")"];
    assert ClosedSeq(g, t, m, [")"]);
    ExprSuffixFirst(m);
    ExprRules(m, f);
    ExprRules(m, ExprFollow());
    ExprFollowShape();
    assert FollowSolution(g, ExprNonTerminals(), m, "E", map[], ExprFollow());
    assert FollowWithin(f, ExprFollow());
  }

  // ---------------------------------------------------------------------
  // The expression grammar has no cycle of FIRST requests
  // ---------------------------------------------------------------------

  /** E asks for T, T for F, and everything else only for terminals and EPSILON. */
  function ExprRank(x: Symbol): nat {
    if x == "E" then 3 else if x == "T" then 2 else if x in {"E'", "T'", "F"} then 1 else 0
  }

  /** A scan led by a symbol that cannot vanish asks for that symbol only. */
  lemma CallsOfHead(g: Rules, s: seq<Symbol>)
    requires s != [] && !MayVanish(g, s[0])
    ensures LeftCalls(g, s) == {s[0]}
  {
  }

  /** A scan asks only for symbols of the scanned sequence. */
  lemma {:induction false} CallsWithin(g: Rules, s: seq<Symbol>, b: Symbol)
    requires b in LeftCalls(g, s)
    ensures b in s
    decreases |s|
  {
    if b != s[0] {
      CallsWithin(g, s[1..], b);
    }
  }

  /** A request made by a production of E or T, whose symbols all rank below its left side. */
  lemma ExprCallsBelow(a: Symbol, p: Production, b: Symbol)
    requires (a == "E" && p == ["T", "E'"]) || (a == "T" && p == ["F", "T'"])
    requires b in LeftCalls(Expr(), UpTo(p, a))
    ensures ExprRank(b) < ExprRank(a)
  {
    CallsWithin(Expr(), UpTo(p, a), b);
    assert b in p;
  }

  /** A production led by a terminal, or the EPSILON alternative, asks for its first symbol only. */
  lemma CallsOfLeader(g: Rules, a: Symbol, p: Production, b: Symbol)
    requires p == [EPSILON] || (p != [] && p[0] != a && p[0] != EPSILON && p[0] !in g)
    requires b in LeftCalls(g, UpTo(p, a))
    ensures b == p[0]
  {
    UpToHead(p, a);
    if p == [EPSILON] {
      assert UpTo(p, a) == p by {
        assert UpTo(p, a) == [EPSILON] + UpTo([], a);
      }
      assert p[1..] == [];
    } else {
      CallsOfHead(g, UpTo(p, a));
    }
  }

  /** The terminals of the expression grammar, and EPSILON, rank lowest. */
  lemma LeaderRank(x: Symbol)
    requires x in ExprTerminals() + {EPSILON}
    ensures x !in Expr() && ExprRank(x) == 0
  {
    ExprShape();
  }

  /** The productions of E', T' and F ask only for terminals and EPSILON. */
  lemma ExprCallsOfLeaders(a: Symbol, p: Production, b: Symbol)
    requires a in Expr() && a != "E" && a != "T" && p in Expr()[a]
    requires b in LeftCalls(Expr(), UpTo(p, a))
    ensures ExprRank(b) == 0 && ExprRank(a) == 1
  {
    ExprShape();
    assert p in [["+", "T", "E'"], [EPSILON], ["*", "F", "T'"], ["(", "E", ")"], ["id"]];
    LeaderRank(p[0]);
    CallsOfLeader(Expr(), a, p, b);
  }

  /** Every FIRST request of the expression grammar lowers the rank. */
  lemma ExprCallsDescend(a: Symbol, b: Symbol)
    requires LeftEdge(Expr(), a, b)
    ensures ExprRank(b) < ExprRank(a)
  {
    var g := Expr();
    var p :| p in g[a] && b in LeftCalls(g, UpTo(p, a));
    if a == "E" || a == "T" {
      ExprShape();
      ExprCallsBelow(a, p, b);
    } else {
      ExprCallsOfLeaders(a, p, b);
    }
  }

  /** FIRST requests of the expression grammar never come back: the analysis cannot diverge on it. */
  lemma ExprAcyclic()
    ensures !LeftCyclic(Expr())
  {
    forall a, b | LeftEdge(Expr(), a, b) ensures ExprRank(b) < ExprRank(a) {
      ExprCallsDescend(a, b);
    }
    RankedAcyclic(Expr(), ExprRank);
  }

  // ---------------------------------------------------------------------
  // The whole analysis of the expression grammar
  // ---------------------------------------------------------------------

  /** Every body symbol of the expression grammar is a non-terminal, a terminal or EPSILON. */
  lemma ExprBodySymbol(lhs: Symbol, j: nat, s: Symbol)
    requires lhs in Expr() && j < |Expr()[lhs]| && s in Expr()[lhs][j]
    ensures s in ExprNonTerminals() || s in ExprTerminals() || s == EPSILON
  {
    ExprShape();
  }

  /** The terminals of the expression grammar are the body symbols that are neither non-terminals nor EPSILON. */
  lemma ExprTerminalsExact()
    ensures forall s :: IsTerminalOf(Expr(), ExprNonTerminals(), s) <==> s in ExprTerminals()
  {
    forall s | IsTerminalOf(Expr(), ExprNonTerminals(), s) ensures s in ExprTerminals() {
      var lhs, j :| lhs in Expr() && 0 <= j < |Expr()[lhs]| && s in Expr()[lhs][j];
      ExprBodySymbol(lhs, j, s);
    }
    ExprShape();
    assert "+" in Expr()["E'"][0] && "*" in Expr()["T'"][0];
    assert "(" in Expr()["F"][0] && ")" in Expr()["F"][0] && "id" in Expr()["F"][1];
  }

  /**
   * The expression grammar has five non-terminals and five terminals, so
   * its FOLLOW sets fit within MAX_PASSES passes.
   */
  lemma ExprSizes()
    ensures |ExprNonTerminals()| == 5 && |ExprTerminals()| == 5
    ensures (|ExprNonTerminals()| + 1) * (|ExprTerminals()| + 1) <= MAX_PASSES
  {
    assert ExprNonTerminals() == {"E"} + {"E'"} + {"T"} + {"T'"} + {"F"};
    assert ExprTerminals() == {"+"} + {"*"} + {"("} + {")"} + {"id"};
  }

  /** The non-terminals of the expression grammar, in the order they are read. */
  lemma ExprOrder()
    ensures OrderOfKeys(Expr(), ["E", "E'", "T", "T'", "F"])
  {
    ExprShape();
  }

  /**
   * A calculator for the expression grammar, with start symbol E, runs the
   * whole analysis without diverging, converges, and finds the textbook
   * FIRST and FOLLOW sets.
   */
  method AnalyseExpr() returns (first: Table, follow: Table, converged: bool, diverged: bool)
    ensures !diverged && converged
    ensures Lookup(first, "F") == {"(", "id"} && Lookup(first, "T") == {"(", "id"}
    ensures Lookup(first, "E") == {"(", "id"}
    ensures Lookup(first, "E'") == {"+", EPSILON} && Lookup(first, "T'") == {"*", EPSILON}
    ensures forall x :: Lookup(follow, x) == Lookup(ExprFollow(), x)
  {
    var order := ["E", "E'", "T", "T'", "F"];
    ExprOrder();
    var c := new FirstFollowCalculator(Expr(), order, ExprNonTerminals(), "E");
    ExprTerminalsExact();
    assert c.terminals == ExprTerminals();
    ExprAcyclic();
    ExprSizes();
    var passes, capWarning;
    passes, converged, capWarning, diverged := c.CalculateAll();
    first, follow := c.firstSets, c.followSets;
    ExprFirstSets(first);
    ExprFollowSets(first, follow);
  }

  // ---------------------------------------------------------------------
  // Cycles of FIRST requests without left recursion
  // ---------------------------------------------------------------------

  /** A -> X B, X -> X a | b, B -> A. */
  function NullableCycle(): Rules {
    map["A" := [["X", "B"]], "X" := [["X", "a"], ["b"]], "B" := [["A"]]]
  }

  /**
   * X has productions, so the scan of A -> X B may step over X and ask for
   * B, and B asks for A: a cycle of FIRST requests, although A is not
   * left-recursive.
   */
  lemma NullableCycleCyclic()
    ensures LeftCyclic(NullableCycle())
  {
    var g := NullableCycle();
    assert UpTo(["X", "B"], "A") == ["X", "B"];
    assert UpTo(["A"], "B") == ["A"];
    assert "B" in LeftCalls(g, ["X", "B"]);
    assert LeftEdge(g, "A", "B") && LeftEdge(g, "B", "A");
    var w := ["A", "B", "A"];
    assert LeftWalk(g, w[1..]);
  }

  /**
   * The scan of X -> X a stops at X itself with nothing scanned, so that
   * production contributes EPSILON: FIRST(X) is {b, EPSILON}, and the scan
   * of A -> X B does step over X and ask for B.
   */
  lemma NullableCycleFirstX(m: Table)
    requires FirstTableValid(NullableCycle(), {"a", "b"}, m)
    requires "X" in m
    ensures m["X"] == {"b", EPSILON}
  {
    var g, t := NullableCycle(), {"a", "b"};
    assert EntryConsistent(g, t, m, "X");
    assert UpTo(["X", "a"], "X") == [];
    assert UpTo(["b"], "X") == ["b"] by {
      assert UpTo(["b"], "X") == ["b"] + UpTo([], "X");
    }
    assert ClosedSeq(g, t, m, UpTo(g["X"][1], "X"));
    assert "b" in m && EntryConsistent(g, t, m, "b");
    SeqFirstOfHead(m, ["b"]);
    UnionOfTwo(m, "X", g["X"]);
  }

  /** A -> X B, X -> b, B -> A: the same cycle of FIRST requests, without the self-reference. */
  function PlainCycle(): Rules {
    map["A" := [["X", "B"]], "X" := [["b"]], "B" := [["A"]]]
  }

  /** PlainCycle keeps the cycle of FIRST requests A to B and back. */
  lemma PlainCycleCyclic()
    ensures LeftCyclic(PlainCycle())
  {
    var g := PlainCycle();
    assert UpTo(["X", "B"], "A") == ["X", "B"];
    assert UpTo(["A"], "B") == ["A"];
    assert "B" in LeftCalls(g, ["X", "B"]);
    assert LeftEdge(g, "A", "B") && LeftEdge(g, "B", "A");
    var w := ["A", "B", "A"];
    assert LeftWalk(g, w[1..]);
  }

  /**
   * Yet FIRST(X) is {b}: the scan of A -> X B stops at X and never asks for
   * B. A cycle of FIRST requests is necessary for divergence, not sufficient.
   */
  lemma PlainCycleFirstX(m: Table)
    requires FirstTableValid(PlainCycle(), {"b"}, m)
    requires "X" in m
    ensures m["X"] == {"b"}
  {
    var g, t := PlainCycle(), {"b"};
    assert EntryConsistent(g, t, m, "X");
    assert UpTo(["b"], "X") == ["b"] by {
      assert UpTo(["b"], "X") == ["b"] + UpTo([], "X");
    }
    assert ClosedSeq(g, t, m, UpTo(g["X"][0], "X"));
    assert "b" in m && EntryConsistent(g, t, m, "b");
    SeqFirstOfHead(m, ["b"]);
    UnionOfOne(m, "X", g["X"]);
  }

  // ---------------------------------------------------------------------
  // A -> B a      B -> A b
  // ---------------------------------------------------------------------

  function Mutual(): Rules {
    map["A" := [["B", "a"]], "B" := [["A", "b"]]]
  }

  /** The terminals of A -> B a, B -> A b are a and b. */
  lemma MutualTerminals()
    ensures forall s :: IsTerminalOf(Mutual(), {"A", "B"}, s) <==> s in {"a", "b"}
  {
    var g := Mutual();
    assert g["A"] == [["B", "a"]] && g["B"] == [["A", "b"]];
    assert "a" in g["A"][0] && "b" in g["B"][0];
  }

  /** From either non-terminal, the first productions lead back to it before anything is recorded. */
  lemma MutualReenters()
    ensures HeadReentry(Mutual(), {"a", "b"}, map[], "A", {})
    ensures HeadReentry(Mutual(), {"a", "b"}, map[], "B", {})
  {
    var g, t := Mutual(), {"a", "b"};
    assert UpTo(["B", "a"], "A") == ["B", "a"];
    assert UpTo(["A", "b"], "B") == ["A", "b"];
    assert HeadReentry(g, t, map[], "A", {"A", "B"});
    assert HeadReentry(g, t, map[], "B", {"A", "B"});
    assert HeadReentry(g, t, map[], "B", {"A"});
    assert HeadReentry(g, t, map[], "A", {"B"});
  }

  /**
   * A -> B a and B -> A b ask for each other before recording anything:
   * the analysis of this cycle of FIRST requests diverges, whichever
   * non-terminal it starts with.
   */
  method AnalyseMutual() returns (diverged: bool)
    ensures diverged
  {
    var g := Mutual();
    assert OrderOfKeys(g, ["A", "B"]);
    var c := new FirstFollowCalculator(g, ["A", "B"], {"A", "B"}, "A");
    MutualTerminals();
    assert c.terminals == {"a", "b"};
    MutualReenters();
    var passes, converged, capWarning;
    passes, converged, capWarning, diverged := c.CalculateAll();
  }
}

=== FILE: grammar.dfy ===
/**
 * Grammars, the FIRST of a symbol sequence and the FOLLOW rules, as values.
 *
 * The calculator in calculator.dfy keeps its FIRST and FOLLOW tables as
 * fields and updates them step by step; this module says what those tables
 * mean, so that the calculator's contracts can be stated against it.
 */
module Grammar {

  type Symbol = string
  /** One alternative of a non-terminal: a (possibly empty) sequence of symbols. */
  type Production = seq<Symbol>
  /** A non-terminal and its alternatives, in the order they were read. */
  type Rules = map<Symbol, seq<Production>>
  /** A table from a symbol to a set of symbols (the FIRST table or the FOLLOW table). */
  type Table = map<Symbol, set<Symbol>>

  /** The empty-string marker, written explicitly in a production body. */
  const EPSILON: Symbol := "ε"
  /** The end-of-input marker, seeded into FOLLOW of the start symbol. */
  const END_MARKER: Symbol := "$"

  // ---------------------------------------------------------------------
  // Symbol classification
  // ---------------------------------------------------------------------

  /** `s` occurs in the body of some production of `g`. */
  ghost predicate InSomeBody(g: Rules, s: Symbol) {
    exists lhs, j :: lhs in g && 0 <= j < |g[lhs]| && s in g[lhs][j]
  }

  /** `s` is a terminal: a body symbol that is neither a non-terminal nor EPSILON. */
  ghost predicate IsTerminalOf(g: Rules, nonTerminals: set<Symbol>, s: Symbol) {
    InSomeBody(g, s) && s !in nonTerminals && s != EPSILON
  }

  /** The symbols the FIRST computation can give an entry to. */
  predicate Defined(g: Rules, terminals: set<Symbol>, x: Symbol) {
    x in terminals || x == EPSILON || x in g
  }

  // ---------------------------------------------------------------------
  // FIRST of sequences, read from a FIRST table
  // ---------------------------------------------------------------------

  /** A table entry; a symbol without an entry reads as the empty set. */
  function Lookup(t: Table, x: Symbol): set<Symbol> {
    if x in t then t[x] else {}
  }

  /**
   * FIRST of the symbol sequence `s`, given FIRST of each symbol in `m`:
   * the non-EPSILON part of each symbol's FIRST up to and including the
   * first symbol whose FIRST lacks EPSILON, plus EPSILON when there is no
   * such symbol.
   */
  function SeqFirst(m: Table, s: seq<Symbol>): set<Symbol>
    decreases |s|
  {
    if s == [] then {EPSILON}
    else
      var f := Lookup(m, s[0]);
      (f - {EPSILON}) + (if EPSILON in f then SeqFirst(m, s[1..]) else {})
  }

  /** The union of FIRST(x) - {EPSILON} over the symbols x of `s`. */
  function Heads(m: Table, s: seq<Symbol>): set<Symbol>
    decreases |s|
  {
    if s == [] then {} else Heads(m, s[..|s| - 1]) + (Lookup(m, s[|s| - 1]) - {EPSILON})
  }

  /** The part of `p` that lies before the first occurrence of `a`. */
  function UpTo(p: Production, a: Symbol): (r: Production)
    ensures |r| <= |p| && r == p[..|r|]
    ensures a !in r
    ensures |r| < |p| ==> p[|r|] == a
    decreases |p|
  {
    if p == [] || p[0] == a then [] else [p[0]] + UpTo(p[1..], a)
  }

  /**
   * What one production of `a` contributes to FIRST(a): the scan of the
   * production stops at the first occurrence of `a` itself, and a scan
   * stopped there counts as a scan that reached the end.
   */
  function ProductionFirst(m: Table, a: Symbol, p: Production): set<Symbol> {
    SeqFirst(m, UpTo(p, a))
  }

  /** FIRST(a) as the union of what each of the productions `prods` contributes. */
  function UnionFirst(m: Table, a: Symbol, prods: seq<Production>): set<Symbol>
    decreases |prods|
  {
    if prods == [] then {}
    else UnionFirst(m, a, prods[..|prods| - 1]) + ProductionFirst(m, a, prods[|prods| - 1])
  }

  // ---------------------------------------------------------------------
  // What a memoised FIRST table guarantees
  // ---------------------------------------------------------------------

  /** A defined symbol already has its entry in `m`. */
  predicate Known(g: Rules, terminals: set<Symbol>, m: Table, x: Symbol) {
    Defined(g, terminals, x) ==> x in m
  }

  /** Every symbol of `s` is known to `m` and its FIRST holds EPSILON. */
  ghost predicate NullableKnown(g: Rules, terminals: set<Symbol>, m: Table, s: seq<Symbol>) {
    forall k :: 0 <= k < |s| ==> Known(g, terminals, m, s[k]) && EPSILON in Lookup(m, s[k])
  }

  /** Every symbol that `SeqFirst(m, s)` looks at is known to `m`. */
  ghost predicate ClosedSeq(g: Rules, terminals: set<Symbol>, m: Table, s: seq<Symbol>)
    decreases |s|
  {
    s == [] ||
    (Known(g, terminals, m, s[0]) &&
     (EPSILON in Lookup(m, s[0]) ==> ClosedSeq(g, terminals, m, s[1..])))
  }

  /** Every production's scan, up to the self-occurrence, is closed in `m`. */
  ghost predicate ProductionsClosed(g: Rules, terminals: set<Symbol>, m: Table, a: Symbol, prods: seq<Production>) {
    forall j :: 0 <= j < |prods| ==> ClosedSeq(g, terminals, m, UpTo(prods[j], a))
  }

  /** `m'` keeps every entry of `m` unchanged (it may add entries). */
  ghost predicate Extends(m: Table, m': Table) {
    forall k :: k in m ==> k in m' && m'[k] == m[k]
  }

  ghost predicate KeysDefined(g: Rules, terminals: set<Symbol>, m: Table) {
    forall k :: k in m ==> Defined(g, terminals, k)
  }

  /**
   * The entry of `k` is what the FIRST computation stores: {k} for a terminal
   * or EPSILON, otherwise the union over k's productions, read from the same
   * table, every scanned symbol having its entry.
   */
  ghost predicate EntryConsistent(g: Rules, terminals: set<Symbol>, m: Table, k: Symbol)
    requires k in m
  {
    if k in terminals || k == EPSILON then m[k] == {k}
    else
      k in g && m[k] == UnionFirst(m, k, g[k]) && ProductionsClosed(g, terminals, m, k, g[k])
  }

  /** Every entry is consistent and holds only terminals and EPSILON. */
  ghost predicate FirstTableValid(g: Rules, terminals: set<Symbol>, m: Table) {
    forall k :: k in m ==> EntryConsistent(g, terminals, m, k) && m[k] <= terminals + {EPSILON}
  }

  // ---------------------------------------------------------------------
  // FOLLOW rules
  // ---------------------------------------------------------------------

  /**
   * The two FOLLOW rules for the occurrence of `p[i]` in production `p` of
   * `lhs`, when `p[i]` is a non-terminal: FOLLOW(p[i]) holds FIRST of the
   * rest of `p` without EPSILON, and holds FOLLOW(lhs) when that rest can
   * derive EPSILON (in particular when it is empty).
   */
  ghost predicate OccurrenceRule(nonTerminals: set<Symbol>, m: Table, f: Table,
                                 lhs: Symbol, p: Production, i: int)
    requires 0 <= i < |p|
  {
    p[i] in nonTerminals ==>
      var beta := SeqFirst(m, p[i + 1..]);
      beta - {EPSILON} <= Lookup(f, p[i]) &&
      (EPSILON in beta ==> Lookup(f, lhs) <= Lookup(f, p[i]))
  }

  /**
   * FOLLOW(p[i]) once the occurrence of `p[i]` in production `p` of `lhs`
   * is relaxed: FIRST of the rest of `p` without EPSILON is added, and
   * FOLLOW(lhs) too when that rest can derive EPSILON.
   */
  function Relaxed(m: Table, f: Table, lhs: Symbol, p: Production, i: nat): set<Symbol>
    requires i < |p|
  {
    var beta := SeqFirst(m, p[i + 1..]);
    Lookup(f, p[i]) + (beta - {EPSILON}) + (if EPSILON in beta then Lookup(f, lhs) else {})
  }

  /** An occurrence whose relaxation adds nothing obeys its FOLLOW rules. */
  lemma RelaxedRule(nonTerminals: set<Symbol>, m: Table, f: Table, lhs: Symbol, p: Production, i: nat)
    requires i < |p|
    ensures Relaxed(m, f, lhs, p, i) <= Lookup(f, p[i]) ==> OccurrenceRule(nonTerminals, m, f, lhs, p, i)
  {
  }

  ghost predicate ProductionRules(nonTerminals: set<Symbol>, m: Table, f: Table,
                                  lhs: Symbol, p: Production)
  {
    forall i :: 0 <= i < |p| ==> OccurrenceRule(nonTerminals, m, f, lhs, p, i)
  }

  /** Every FOLLOW rule of every production of `g` holds in `f`. */
  ghost predicate FollowFixpoint(g: Rules, nonTerminals: set<Symbol>, m: Table, f: Table) {
    forall lhs, j :: lhs in g && 0 <= j < |g[lhs]| ==>
      ProductionRules(nonTerminals, m, f, lhs, g[lhs][j])
  }

  /** Every FOLLOW set of `f` lies within the one of `f'`. */
  ghost predicate FollowWithin(f: Table, f': Table) {
    forall x :: Lookup(f, x) <= Lookup(f', x)
  }

  // ---------------------------------------------------------------------
  // Lemmas about FIRST of sequences
  // ---------------------------------------------------------------------

  /**
   * Scanning over a prefix whose symbols all derive EPSILON: FIRST of the
   * whole sequence is the heads of the prefix plus FIRST of the rest.
   */
  lemma {:induction false} SplitFirst(m: Table, s: seq<Symbol>, i: nat)
    requires i <= |s|
    requires forall k :: 0 <= k < i ==> EPSILON in Lookup(m, s[k])
    ensures SeqFirst(m, s) == Heads(m, s[..i]) + SeqFirst(m, s[i..])
  {
    if i == 0 {
      assert s[..0] == [] && s[0..] == s;
    } else {
      SplitFirst(m, s, i - 1);
      assert s[i - 1..][1..] == s[i..];
      assert s[..i][..i - 1] == s[..i - 1];
    }
  }

  /** EPSILON is in FIRST of a sequence exactly when every symbol's FIRST holds EPSILON. */
  lemma {:induction false} SeqFirstHasEpsilon(m: Table, s: seq<Symbol>)
    ensures EPSILON in SeqFirst(m, s) <==> forall k :: 0 <= k < |s| ==> EPSILON in Lookup(m, s[k])
    decreases |s|
  {
    if s != [] {
      SeqFirstHasEpsilon(m, s[1..]);
      assert forall k :: 1 <= k < |s| ==> s[k] == s[1..][k - 1];
    }
  }

  /**
   * When `s[i]` is the first symbol whose FIRST lacks EPSILON, FIRST of `s`
   * is the union of FIRST(x) - {EPSILON} for the symbols up to and including
   * `s[i]`, and nothing else.
   */
  lemma SeqFirstStopsAt(m: Table, s: seq<Symbol>, i: nat)
    requires i < |s|
    requires forall k :: 0 <= k < i ==> EPSILON in Lookup(m, s[k])
    requires EPSILON !in Lookup(m, s[i])
    ensures SeqFirst(m, s) == Heads(m, s[..i + 1])
  {
    SplitFirst(m, s, i);
    assert s[..i + 1][..i] == s[..i];
  }

  /** When every symbol derives EPSILON, FIRST of `s` is all the heads plus EPSILON. */
  lemma SeqFirstAllNullable(m: Table, s: seq<Symbol>)
    requires forall k :: 0 <= k < |s| ==> EPSILON in Lookup(m, s[k])
    ensures SeqFirst(m, s) == Heads(m, s) + {EPSILON}
  {
    SplitFirst(m, s, |s|);
    assert s[..|s|] == s;
  }

  /** FIRST of a sequence holds only terminals and EPSILON when the table does. */
  lemma {:induction false} SeqFirstBounded(g: Rules, terminals: set<Symbol>, m: Table, s: seq<Symbol>)
    requires FirstTableValid(g, terminals, m)
    ensures SeqFirst(m, s) <= terminals + {EPSILON}
    decreases |s|
  {
    if s != [] {
      SeqFirstBounded(g, terminals, m, s[1..]);
    }
  }

  /** Cutting `p` after a prefix free of `a` leaves the cut of the rest. */
  lemma {:induction false} UpToSplit(p: Production, a: Symbol, i: nat)
    requires i <= |p|
    requires a !in p[..i]
    ensures UpTo(p, a) == p[..i] + UpTo(p[i..], a)
    decreases i
  {
    if i == 0 {
      assert p[0..] == p;
    } else {
      var q := p[1..];
      assert p[0] == p[..i][0];
      assert q[..i - 1] == p[1..i];
      assert q[i - 1..] == p[i..];
      assert p[..i] == [p[0]] + p[1..i];
      UpToSplit(q, a, i - 1);
      calc {
        UpTo(p, a);
        [p[0]] + UpTo(q, a);
        [p[0]] + (p[1..i] + UpTo(p[i..], a));
        p[..i] + UpTo(p[i..], a);
      }
    }
  }

  /** A scanned prefix that is known and nullable, ended by a known non-nullable symbol or by the end, is closed. */
  lemma {:induction false} ClosedPrefix(g: Rules, terminals: set<Symbol>, m: Table, s: seq<Symbol>, i: nat)
    requires i <= |s|
    requires forall k :: 0 <= k < i ==> Known(g, terminals, m, s[k]) && EPSILON in Lookup(m, s[k])
    requires i < |s| ==> Known(g, terminals, m, s[i]) && EPSILON !in Lookup(m, s[i])
    ensures ClosedSeq(g, terminals, m, s)
    decreases i
  {
    if i > 0 {
      ClosedPrefix(g, terminals, m, s[1..], i - 1);
    }
  }

  /**
   * A left-to-right scan of `s` stops at `s[i]`, the first symbol whose
   * FIRST lacks EPSILON: FIRST of `s` is the heads before it plus its own
   * FIRST without EPSILON, and every symbol the scan read is known.
   */
  lemma ScanStops(g: Rules, terminals: set<Symbol>, m: Table, s: seq<Symbol>, i: nat)
    requires i < |s|
    requires NullableKnown(g, terminals, m, s[..i])
    requires Known(g, terminals, m, s[i]) && EPSILON !in Lookup(m, s[i])
    ensures SeqFirst(m, s) == Heads(m, s[..i]) + (Lookup(m, s[i]) - {EPSILON})
    ensures ClosedSeq(g, terminals, m, s)
  {
    assert forall k :: 0 <= k < i ==> s[..i][k] == s[k];
    SeqFirstStopsAt(m, s, i);
    assert s[..i + 1][..i] == s[..i];
    ClosedPrefix(g, terminals, m, s, i);
  }

  /** A left-to-right scan of `s` reaches its end: FIRST of `s` is all heads plus EPSILON. */
  lemma ScanEnds(g: Rules, terminals: set<Symbol>, m: Table, s: seq<Symbol>)
    requires NullableKnown(g, terminals, m, s)
    ensures SeqFirst(m, s) == Heads(m, s) + {EPSILON}
    ensures ClosedSeq(g, terminals, m, s)
  {
    SeqFirstAllNullable(m, s);
    ClosedPrefix(g, terminals, m, s, |s|);
  }

  /**
   * The scan of a production of `a` meets `a` itself at `i`: the production
   * contributes the heads of the symbols before it, and EPSILON.
   */
  lemma ScanStopsAtSelf(g: Rules, terminals: set<Symbol>, m: Table, p: Production, a: Symbol, i: nat)
    requires i < |p| && p[i] == a && a !in p[..i]
    requires NullableKnown(g, terminals, m, p[..i])
    ensures ProductionFirst(m, a, p) == Heads(m, p[..i]) + {EPSILON}
    ensures ClosedSeq(g, terminals, m, UpTo(p, a))
  {
    UpToSplit(p, a, i);
    assert UpTo(p, a) == p[..i];
    assert forall k :: 0 <= k < i ==> p[..i][k] == p[k];
    SeqFirstAllNullable(m, p[..i]);
    ClosedPrefix(g, terminals, m, p[..i], i);
  }

  /**
   * The scan of a production of `a` meets, at `i`, a symbol whose FIRST
   * lacks EPSILON: the production contributes the heads up to and including
   * that symbol, and no EPSILON.
   */
  lemma ScanStopsAtNonNullable(g: Rules, terminals: set<Symbol>, m: Table, p: Production, a: Symbol, i: nat)
    requires i < |p| && p[i] != a && a !in p[..i]
    requires NullableKnown(g, terminals, m, p[..i])
    requires Known(g, terminals, m, p[i]) && EPSILON !in Lookup(m, p[i])
    ensures ProductionFirst(m, a, p) == Heads(m, p[..i]) + (Lookup(m, p[i]) - {EPSILON})
    ensures ClosedSeq(g, terminals, m, UpTo(p, a))
  {
    UpToSplit(p, a, i);
    var s := UpTo(p, a);
    assert s[..i] == p[..i] && s[i] == p[i];
    assert forall k :: 0 <= k < i ==> p[..i][k] == s[k];
    SeqFirstStopsAt(m, s, i);
    assert s[..i + 1] == p[..i + 1];
    assert s[..i + 1][..i] == s[..i];
    ClosedPrefix(g, terminals, m, s, i);
  }

  /**
   * The scan of a production of `a` reaches its end: every symbol's FIRST
   * holds EPSILON, and the production contributes all heads and EPSILON.
   */
  lemma ScanReachesEnd(g: Rules, terminals: set<Symbol>, m: Table, p: Production, a: Symbol)
    requires a !in p
    requires NullableKnown(g, terminals, m, p)
    ensures ProductionFirst(m, a, p) == Heads(m, p) + {EPSILON}
    ensures ClosedSeq(g, terminals, m, UpTo(p, a))
  {
    assert p[..|p|] == p;
    UpToSplit(p, a, |p|);
    assert UpTo(p, a) == p;
    SeqFirstAllNullable(m, p);
    ClosedPrefix(g, terminals, m, p, |p|);
  }

  // ---------------------------------------------------------------------
  // Memoisation only adds entries: what was read before still reads the same
  // ---------------------------------------------------------------------

  /** One more scanned symbol, known and nullable, extends a known nullable prefix. */
  lemma PrefixGrows(g: Rules, terminals: set<Symbol>, m: Table, s: seq<Symbol>, i: nat)
    requires i < |s|
    requires NullableKnown(g, terminals, m, s[..i])
    requires Known(g, terminals, m, s[i]) && EPSILON in Lookup(m, s[i])
    ensures NullableKnown(g, terminals, m, s[..i + 1])
    ensures Heads(m, s[..i + 1]) == Heads(m, s[..i]) + (Lookup(m, s[i]) - {EPSILON})
  {
    assert s[..i + 1][..i] == s[..i];
    assert forall k :: 0 <= k < i ==> s[..i + 1][k] == s[..i][k];
  }

  /** One more production, closed and contributing `c`, extends the union. */
  lemma UnionGrows(g: Rules, terminals: set<Symbol>, m: Table, a: Symbol, prods: seq<Production>, j: nat)
    requires j < |prods|
    requires ProductionsClosed(g, terminals, m, a, prods[..j])
    requires ClosedSeq(g, terminals, m, UpTo(prods[j], a))
    ensures ProductionsClosed(g, terminals, m, a, prods[..j + 1])
    ensures UnionFirst(m, a, prods[..j + 1]) == UnionFirst(m, a, prods[..j]) + ProductionFirst(m, a, prods[j])
  {
    assert prods[..j + 1][..j] == prods[..j];
    assert forall jj :: 0 <= jj < j ==> prods[..j + 1][jj] == prods[..j][jj];
  }

  /** A subset is no larger, and a proper subset is smaller. */
  lemma SubsetCard(a: set<Symbol>, b: set<Symbol>)
    requires a <= b
    ensures |a| <= |b|
    ensures a != b ==> |a| < |b|
  {
    assert b == a + (b - a);
    assert |b| == |a| + |b - a|;
    if a != b {
      var e :| e in b - a;
    }
  }

  /** Two FOLLOW tables that read the same for every symbol. */
  ghost predicate SameFollow(f: Table, f': Table) {
    forall x :: Lookup(f, x) == Lookup(f', x)
  }

  /** Every FOLLOW set holds only terminals and END_MARKER. */
  ghost predicate FollowBounded(terminals: set<Symbol>, f: Table) {
    forall x :: x in f ==> f[x] <= terminals + {END_MARKER}
  }

  /** A bounded write keeps the FOLLOW table bounded. */
  lemma UpdateBounded(terminals: set<Symbol>, f: Table, x: Symbol, v: set<Symbol>)
    requires FollowBounded(terminals, f) && v <= terminals + {END_MARKER}
    ensures FollowBounded(terminals, f[x := v])
  {
  }

  /**
   * Writing a superset of the current entry of `x`: no FOLLOW set shrinks,
   * and the table reads differently exactly when the entry grew, that is,
   * when it became larger.
   */
  lemma WriteGrows(f: Table, x: Symbol, v: set<Symbol>)
    requires Lookup(f, x) <= v
    ensures FollowWithin(f, f[x := v])
    ensures Lookup(f, x) < v <==> !SameFollow(f, f[x := v])
    ensures Lookup(f, x) < v <==> |Lookup(f, x)| < |v|
  {
    forall y ensures Lookup(f, y) <= Lookup(f[x := v], y) {
      if y != x {
        assert Lookup(f[x := v], y) == Lookup(f, y);
      }
    }
    if v == Lookup(f, x) {
      UpdateSame(f, f, x);
    } else {
      assert Lookup(f[x := v], x) != Lookup(f, x);
    }
    SubsetCard(Lookup(f, x), v);
  }

  /** Writing back the current entry changes nothing a reader can see. */
  lemma UpdateSame(f0: Table, f: Table, x: Symbol)
    requires SameFollow(f0, f)
    ensures SameFollow(f0, f[x := Lookup(f, x)])
  {
    forall y ensures Lookup(f0, y) == Lookup(f[x := Lookup(f, x)], y) {
      if y != x {
        assert Lookup(f[x := Lookup(f, x)], y) == Lookup(f, y);
      }
    }
  }

  /** `Settled` for every production of `lhs`. */
  ghost predicate LhsSettled(g: Rules, terminals: set<Symbol>, nonTerminals: set<Symbol>,
                             m: Table, f: Table, lhs: Symbol)
  {
    lhs in g && LhsSettledUpTo(g, terminals, nonTerminals, m, f, lhs, |g[lhs]|)
  }

  /** `Settled` for the first `n` productions of `lhs`. */
  ghost predicate LhsSettledUpTo(g: Rules, terminals: set<Symbol>, nonTerminals: set<Symbol>,
                                 m: Table, f: Table, lhs: Symbol, n: nat)
    requires lhs in g && n <= |g[lhs]|
  {
    forall j :: 0 <= j < n ==> Settled(g, terminals, nonTerminals, m, f, lhs, g[lhs][j])
  }

  /** `LhsSettled` for the first `n` non-terminals of `order`. */
  ghost predicate OrderSettled(g: Rules, terminals: set<Symbol>, nonTerminals: set<Symbol>,
                               m: Table, f: Table, order: seq<Symbol>, n: nat)
    requires n <= |order|
  {
    forall b :: 0 <= b < n ==> LhsSettled(g, terminals, nonTerminals, m, f, order[b])
  }

  /** The FOLLOW rules only read the table through `Lookup`. */
  lemma FixpointSameFollow(g: Rules, nonTerminals: set<Symbol>, m: Table, f: Table, f': Table)
    requires SameFollow(f, f')
    requires FollowFixpoint(g, nonTerminals, m, f)
    ensures FollowFixpoint(g, nonTerminals, m, f')
  {
    forall lhs, j | lhs in g && 0 <= j < |g[lhs]|
      ensures ProductionRules(nonTerminals, m, f', lhs, g[lhs][j])
    {
      var p := g[lhs][j];
      forall i | 0 <= i < |p| ensures OccurrenceRule(nonTerminals, m, f', lhs, p, i) {
        assert OccurrenceRule(nonTerminals, m, f, lhs, p, i);
      }
    }
  }

  lemma FirstTableKeysDefined(g: Rules, terminals: set<Symbol>, m: Table)
    requires FirstTableValid(g, terminals, m)
    ensures KeysDefined(g, terminals, m)
  {
    forall k | k in m ensures Defined(g, terminals, k) {
      assert EntryConsistent(g, terminals, m, k);
    }
  }

  /** A known, nullable prefix stays known and nullable, with the same heads. */
  lemma PrefixStable(g: Rules, terminals: set<Symbol>, m: Table, m': Table, s: seq<Symbol>)
    requires Extends(m, m') && KeysDefined(g, terminals, m')
    requires NullableKnown(g, terminals, m, s)
    ensures NullableKnown(g, terminals, m', s)
    ensures Heads(m', s) == Heads(m, s)
  {
    HeadsStable(g, terminals, m, m', s);
  }

  lemma {:induction false} HeadsStable(g: Rules, terminals: set<Symbol>, m: Table, m': Table, s: seq<Symbol>)
    requires Extends(m, m') && KeysDefined(g, terminals, m')
    requires forall k :: 0 <= k < |s| ==> Known(g, terminals, m, s[k])
    ensures Heads(m', s) == Heads(m, s)
    decreases |s|
  {
    if s != [] {
      HeadsStable(g, terminals, m, m', s[..|s| - 1]);
    }
  }

  lemma {:induction false} SeqFirstStable(g: Rules, terminals: set<Symbol>, m: Table, m': Table, s: seq<Symbol>)
    requires Extends(m, m') && KeysDefined(g, terminals, m')
    requires ClosedSeq(g, terminals, m, s)
    ensures SeqFirst(m', s) == SeqFirst(m, s)
    ensures ClosedSeq(g, terminals, m', s)
    decreases |s|
  {
    if s != [] {
      assert Lookup(m', s[0]) == Lookup(m, s[0]);
      if EPSILON in Lookup(m, s[0]) {
        SeqFirstStable(g, terminals, m, m', s[1..]);
      }
    }
  }

  lemma {:induction false} UnionFirstStable(g: Rules, terminals: set<Symbol>, m: Table, m': Table,
                                            a: Symbol, prods: seq<Production>)
    requires Extends(m, m') && KeysDefined(g, terminals, m')
    requires ProductionsClosed(g, terminals, m, a, prods)
    ensures UnionFirst(m', a, prods) == UnionFirst(m, a, prods)
    ensures ProductionsClosed(g, terminals, m', a, prods)
    decreases |prods|
  {
    if prods != [] {
      var n := |prods| - 1;
      assert forall j :: 0 <= j < n ==> prods[..n][j] == prods[j];
      UnionFirstStable(g, terminals, m, m', a, prods[..n]);
      SeqFirstStable(g, terminals, m, m', UpTo(prods[n], a));
      forall j | 0 <= j < |prods|
        ensures ClosedSeq(g, terminals, m', UpTo(prods[j], a))
      {
        SeqFirstStable(g, terminals, m, m', UpTo(prods[j], a));
      }
    }
  }

  /** Adding consistent entries to a valid FIRST table keeps it valid. */
  lemma FirstTableExtend(g: Rules, terminals: set<Symbol>, m: Table, m': Table)
    requires FirstTableValid(g, terminals, m)
    requires Extends(m, m')
    requires forall k :: k in m' && k !in m ==>
               EntryConsistent(g, terminals, m', k) && m'[k] <= terminals + {EPSILON}
    ensures FirstTableValid(g, terminals, m')
  {
    assert KeysDefined(g, terminals, m') by {
      forall k | k in m' ensures Defined(g, terminals, k) {
        if k in m { assert EntryConsistent(g, terminals, m, k); }
      }
    }
    forall k | k in m && k !in terminals && k != EPSILON
      ensures EntryConsistent(g, terminals, m', k)
    {
      assert EntryConsistent(g, terminals, m, k);
      UnionFirstStable(g, terminals, m, m', k, g[k]);
    }
  }

  /**
   * The FOLLOW rules of the first `n` positions of `p` hold in `f`, and FIRST
   * of what follows each non-terminal there is closed in `m`.
   */
  ghost predicate SettledUpTo(g: Rules, terminals: set<Symbol>, nonTerminals: set<Symbol>,
                              m: Table, f: Table, lhs: Symbol, p: Production, n: nat)
    requires n <= |p|
  {
    forall k :: 0 <= k < n ==>
      OccurrenceRule(nonTerminals, m, f, lhs, p, k) &&
      (p[k] in nonTerminals ==> ClosedSeq(g, terminals, m, p[k + 1..]))
  }

  /** `SettledUpTo` for the whole production. */
  ghost predicate Settled(g: Rules, terminals: set<Symbol>, nonTerminals: set<Symbol>,
                          m: Table, f: Table, lhs: Symbol, p: Production)
  {
    SettledUpTo(g, terminals, nonTerminals, m, f, lhs, p, |p|)
  }

  // ---------------------------------------------------------------------
  // A pass relaxes every occurrence
  // ---------------------------------------------------------------------

  /** Reading FOLLOW from a larger table gives a larger `Relaxed` set. */
  lemma RelaxedMonotone(m: Table, f: Table, f': Table, lhs: Symbol, p: Production, i: nat)
    requires i < |p| && FollowWithin(f, f')
    ensures Relaxed(m, f, lhs, p, i) <= Relaxed(m, f', lhs, p, i)
  {
    assert Lookup(f, p[i]) <= Lookup(f', p[i]) && Lookup(f, lhs) <= Lookup(f', lhs);
  }

  /**
   * Every non-terminal among the first `n` positions of `p` has been relaxed
   * against the FOLLOW table `f0`: its FOLLOW set in `f` holds its `Relaxed`
   * set, and FIRST of what follows it is closed in `m`.
   */
  ghost predicate RelaxedUpTo(g: Rules, terminals: set<Symbol>, nonTerminals: set<Symbol>,
                              m: Table, f0: Table, f: Table, lhs: Symbol, p: Production, n: nat)
    requires n <= |p|
  {
    forall k :: 0 <= k < n && p[k] in nonTerminals ==>
      ClosedSeq(g, terminals, m, p[k + 1..]) && Relaxed(m, f0, lhs, p, k) <= Lookup(f, p[k])
  }

  /** `RelaxedUpTo` for every position of `p`. */
  ghost predicate ProductionRelaxed(g: Rules, terminals: set<Symbol>, nonTerminals: set<Symbol>,
                                    m: Table, f0: Table, f: Table, lhs: Symbol, p: Production)
  {
    RelaxedUpTo(g, terminals, nonTerminals, m, f0, f, lhs, p, |p|)
  }

  /**
   * Relaxed positions stay relaxed when FIRST entries are memoised, FOLLOW
   * sets grow, or they are read against a smaller starting table `f0'`.
   */
  lemma RelaxedUpToStable(g: Rules, terminals: set<Symbol>, nonTerminals: set<Symbol>,
                          m: Table, m': Table, f0: Table, f0': Table, f: Table, f': Table,
                          lhs: Symbol, p: Production, n: nat)
    requires n <= |p|
    requires Extends(m, m') && KeysDefined(g, terminals, m')
    requires FollowWithin(f0', f0) && FollowWithin(f, f')
    requires RelaxedUpTo(g, terminals, nonTerminals, m, f0, f, lhs, p, n)
    ensures RelaxedUpTo(g, terminals, nonTerminals, m', f0', f', lhs, p, n)
  {
    forall k | 0 <= k < n && p[k] in nonTerminals
      ensures ClosedSeq(g, terminals, m', p[k + 1..])
      ensures Relaxed(m', f0', lhs, p, k) <= Lookup(f', p[k])
    {
      SeqFirstStable(g, terminals, m, m', p[k + 1..]);
      RelaxedMonotone(m, f0', f0, lhs, p, k);
    }
  }

  /**
   * Relaxing position `i` against `f`, where FIRST entries went from `m` to
   * `m'` and FOLLOW sets from `f` to `f'`, extends the relaxed prefix.
   */
  lemma RelaxedUpToStep(g: Rules, terminals: set<Symbol>, nonTerminals: set<Symbol>,
                        m: Table, m': Table, f0: Table, f: Table, f': Table, lhs: Symbol, p: Production, i: nat)
    requires i < |p|
    requires Extends(m, m') && KeysDefined(g, terminals, m')
    requires FollowWithin(f0, f) && FollowWithin(f, f')
    requires RelaxedUpTo(g, terminals, nonTerminals, m, f0, f, lhs, p, i)
    requires p[i] in nonTerminals ==>
      ClosedSeq(g, terminals, m', p[i + 1..]) && Relaxed(m', f, lhs, p, i) <= Lookup(f', p[i])
    ensures RelaxedUpTo(g, terminals, nonTerminals, m', f0, f', lhs, p, i + 1)
  {
    RelaxedUpToStable(g, terminals, nonTerminals, m, m', f0, f0, f, f', lhs, p, i);
    if p[i] in nonTerminals {
      RelaxedMonotone(m', f0, f, lhs, p, i);
    }
  }

  /** `ProductionRelaxed` for the first `n` productions of `lhs`. */
  ghost predicate LhsRelaxedUpTo(g: Rules, terminals: set<Symbol>, nonTerminals: set<Symbol>,
                                 m: Table, f0: Table, f: Table, lhs: Symbol, n: nat)
    requires lhs in g && n <= |g[lhs]|
  {
    forall j :: 0 <= j < n ==> ProductionRelaxed(g, terminals, nonTerminals, m, f0, f, lhs, g[lhs][j])
  }

  /** `ProductionRelaxed` for every production of `lhs`. */
  ghost predicate LhsRelaxed(g: Rules, terminals: set<Symbol>, nonTerminals: set<Symbol>,
                             m: Table, f0: Table, f: Table, lhs: Symbol)
  {
    lhs in g && LhsRelaxedUpTo(g, terminals, nonTerminals, m, f0, f, lhs, |g[lhs]|)
  }

  lemma LhsRelaxedStable(g: Rules, terminals: set<Symbol>, nonTerminals: set<Symbol>,
                         m: Table, m': Table, f0: Table, f: Table, f': Table, lhs: Symbol, n: nat)
    requires lhs in g && n <= |g[lhs]|
    requires Extends(m, m') && KeysDefined(g, terminals, m') && FollowWithin(f, f')
    requires LhsRelaxedUpTo(g, terminals, nonTerminals, m, f0, f, lhs, n)
    ensures LhsRelaxedUpTo(g, terminals, nonTerminals, m', f0, f', lhs, n)
  {
    forall j | 0 <= j < n
      ensures ProductionRelaxed(g, terminals, nonTerminals, m', f0, f', lhs, g[lhs][j])
    {
      RelaxedUpToStable(g, terminals, nonTerminals, m, m', f0, f0, f, f', lhs, g[lhs][j], |g[lhs][j]|);
    }
  }

  /** `LhsRelaxed` for the first `n` non-terminals of `order`. */
  ghost predicate OrderRelaxed(g: Rules, terminals: set<Symbol>, nonTerminals: set<Symbol>,
                               m: Table, f0: Table, f: Table, order: seq<Symbol>, n: nat)
    requires n <= |order|
  {
    forall b :: 0 <= b < n ==> LhsRelaxed(g, terminals, nonTerminals, m, f0, f, order[b])
  }

  lemma OrderRelaxedStable(g: Rules, terminals: set<Symbol>, nonTerminals: set<Symbol>,
                           m: Table, m': Table, f0: Table, f: Table, f': Table, order: seq<Symbol>, n: nat)
    requires n <= |order|
    requires Extends(m, m') && KeysDefined(g, terminals, m') && FollowWithin(f, f')
    requires OrderRelaxed(g, terminals, nonTerminals, m, f0, f, order, n)
    ensures OrderRelaxed(g, terminals, nonTerminals, m', f0, f', order, n)
  {
    forall b | 0 <= b < n
      ensures LhsRelaxed(g, terminals, nonTerminals, m', f0, f', order[b])
    {
      var lhs := order[b];
      LhsRelaxedStable(g, terminals, nonTerminals, m, m', f0, f, f', lhs, |g[lhs]|);
    }
  }

  /**
   * Relaxing production `j` of `order[a]` against `f` extends the relaxed
   * productions of `order[a]`, and keeps those of `order[..a]`.
   */
  lemma LhsRelaxedStep(g: Rules, terminals: set<Symbol>, nonTerminals: set<Symbol>,
                       m: Table, m': Table, f0: Table, f: Table, f': Table, order: seq<Symbol>, a: nat, j: nat)
    requires a < |order| && order[a] in g && j < |g[order[a]]|
    requires Extends(m, m') && KeysDefined(g, terminals, m')
    requires FollowWithin(f0, f) && FollowWithin(f, f')
    requires OrderRelaxed(g, terminals, nonTerminals, m, f0, f, order, a)
    requires LhsRelaxedUpTo(g, terminals, nonTerminals, m, f0, f, order[a], j)
    requires ProductionRelaxed(g, terminals, nonTerminals, m', f, f', order[a], g[order[a]][j])
    ensures OrderRelaxed(g, terminals, nonTerminals, m', f0, f', order, a)
    ensures LhsRelaxedUpTo(g, terminals, nonTerminals, m', f0, f', order[a], j + 1)
  {
    var lhs := order[a];
    var p := g[lhs][j];
    OrderRelaxedStable(g, terminals, nonTerminals, m, m', f0, f, f', order, a);
    LhsRelaxedStable(g, terminals, nonTerminals, m, m', f0, f, f', lhs, j);
    RelaxedUpToStable(g, terminals, nonTerminals, m', m', f, f0, f', f', lhs, p, |p|);
  }

  /** Every occurrence of every production of `g` has been relaxed against `f0`. */
  ghost predicate PassRelaxed(g: Rules, terminals: set<Symbol>, nonTerminals: set<Symbol>,
                              m: Table, f0: Table, f: Table)
  {
    forall lhs, j :: lhs in g && 0 <= j < |g[lhs]| ==>
      ProductionRelaxed(g, terminals, nonTerminals, m, f0, f, lhs, g[lhs][j])
  }

  /**
   * A production relaxed against `f0` that left every FOLLOW set as it was
   * obeys every FOLLOW rule in `f0`.
   */
  lemma RelaxedSettled(g: Rules, terminals: set<Symbol>, nonTerminals: set<Symbol>,
                       m: Table, f0: Table, f: Table, lhs: Symbol, p: Production)
    requires ProductionRelaxed(g, terminals, nonTerminals, m, f0, f, lhs, p) && SameFollow(f0, f)
    ensures Settled(g, terminals, nonTerminals, m, f0, lhs, p)
  {
    forall k | 0 <= k < |p|
      ensures OccurrenceRule(nonTerminals, m, f0, lhs, p, k)
    {
      if p[k] in nonTerminals {
        assert Lookup(f, p[k]) == Lookup(f0, p[k]);
      }
      RelaxedRule(nonTerminals, m, f0, lhs, p, k);
    }
  }

  /** `RelaxedSettled` for the productions of the first `n` non-terminals of `order`. */
  lemma OrderRelaxedSettled(g: Rules, terminals: set<Symbol>, nonTerminals: set<Symbol>,
                            m: Table, f0: Table, f: Table, order: seq<Symbol>, n: nat)
    requires n <= |order|
    requires OrderRelaxed(g, terminals, nonTerminals, m, f0, f, order, n) && SameFollow(f0, f)
    ensures OrderSettled(g, terminals, nonTerminals, m, f0, order, n)
  {
    forall b | 0 <= b < n
      ensures LhsSettled(g, terminals, nonTerminals, m, f0, order[b])
    {
      var lhs := order[b];
      forall j | 0 <= j < |g[lhs]|
        ensures Settled(g, terminals, nonTerminals, m, f0, lhs, g[lhs][j])
      {
        RelaxedSettled(g, terminals, nonTerminals, m, f0, f, lhs, g[lhs][j]);
      }
    }
  }

  /**
   * A pass that relaxed every occurrence against `f0` and left every FOLLOW
   * set as it was has reached a fixpoint, and every FIRST it read is closed.
   */
  lemma PassRelaxedFixpoint(g: Rules, terminals: set<Symbol>, nonTerminals: set<Symbol>,
                            m: Table, f0: Table, f: Table)
    requires PassRelaxed(g, terminals, nonTerminals, m, f0, f) && SameFollow(f0, f)
    ensures FollowFixpoint(g, nonTerminals, m, f0)
    ensures FollowReadsKnown(g, terminals, nonTerminals, m)
  {
    forall lhs, j | lhs in g && 0 <= j < |g[lhs]|
      ensures ProductionRules(nonTerminals, m, f0, lhs, g[lhs][j])
    {
      RelaxedSettled(g, terminals, nonTerminals, m, f0, f, lhs, g[lhs][j]);
    }
    forall lhs, j, i | lhs in g && 0 <= j < |g[lhs]| && 0 <= i < |g[lhs][j]| && g[lhs][j][i] in nonTerminals
      ensures ClosedSeq(g, terminals, m, g[lhs][j][i + 1..])
    {
      assert ProductionRelaxed(g, terminals, nonTerminals, m, f0, f, lhs, g[lhs][j]);
    }
  }

  // ---------------------------------------------------------------------
  // FOLLOW is the least solution
  // ---------------------------------------------------------------------

  /**
   * Every FOLLOW rule of `g` reads FIRST of a suffix that is closed in `m`,
   * so the rules see the FIRST sets of those suffixes, not a partial table.
   */
  ghost predicate FollowReadsKnown(g: Rules, terminals: set<Symbol>, nonTerminals: set<Symbol>, m: Table) {
    forall lhs, j, i :: lhs in g && 0 <= j < |g[lhs]| && 0 <= i < |g[lhs][j]| && g[lhs][j][i] in nonTerminals ==>
      ClosedSeq(g, terminals, m, g[lhs][j][i + 1..])
  }

  /**
   * `h` is a solution of the FOLLOW problem that starts from `f0`: it obeys
   * every FOLLOW rule, holds END_MARKER in FOLLOW(start) and includes `f0`.
   */
  ghost predicate FollowSolution(g: Rules, nonTerminals: set<Symbol>, m: Table, start: Symbol, f0: Table, h: Table) {
    FollowFixpoint(g, nonTerminals, m, h) && END_MARKER in Lookup(h, start) && FollowWithin(f0, h)
  }

  /** Everything in `f` is forced: `f` lies within every solution. */
  ghost predicate FollowForced(g: Rules, nonTerminals: set<Symbol>, m: Table, start: Symbol, f0: Table, f: Table) {
    forall h :: FollowSolution(g, nonTerminals, m, start, f0, h) ==> FollowWithin(f, h)
  }

  /** Reading FIRST from a table with more entries gives a larger FIRST of a sequence. */
  lemma {:induction false} SeqFirstMonotone(m: Table, m': Table, s: seq<Symbol>)
    requires Extends(m, m')
    ensures SeqFirst(m, s) <= SeqFirst(m', s)
    decreases |s|
  {
    if s != [] {
      assert Lookup(m, s[0]) <= Lookup(m', s[0]);
      SeqFirstMonotone(m, m', s[1..]);
    }
  }

  /** A solution for a table with more entries is a solution for the smaller table. */
  lemma FixpointWeakens(g: Rules, nonTerminals: set<Symbol>, m: Table, m': Table, h: Table)
    requires Extends(m, m')
    requires FollowFixpoint(g, nonTerminals, m', h)
    ensures FollowFixpoint(g, nonTerminals, m, h)
  {
    forall lhs, j, i | lhs in g && 0 <= j < |g[lhs]| && 0 <= i < |g[lhs][j]|
      ensures OccurrenceRule(nonTerminals, m, h, lhs, g[lhs][j], i)
    {
      assert OccurrenceRule(nonTerminals, m', h, lhs, g[lhs][j], i);
      SeqFirstMonotone(m, m', g[lhs][j][i + 1..]);
    }
  }

  /** Memoising more FIRST entries keeps every FOLLOW element forced. */
  lemma ForcedStable(g: Rules, nonTerminals: set<Symbol>, m: Table, m': Table, start: Symbol, f0: Table, f: Table)
    requires Extends(m, m')
    requires FollowForced(g, nonTerminals, m, start, f0, f)
    ensures FollowForced(g, nonTerminals, m', start, f0, f)
  {
    forall h | FollowSolution(g, nonTerminals, m', start, f0, h)
      ensures FollowWithin(f, h)
    {
      FixpointWeakens(g, nonTerminals, m, m', h);
    }
  }

  /** Seeding END_MARKER into FOLLOW(start) adds only forced elements. */
  lemma ForcedSeed(g: Rules, nonTerminals: set<Symbol>, m: Table, start: Symbol, f0: Table)
    ensures FollowForced(g, nonTerminals, m, start, f0, f0[start := Lookup(f0, start) + {END_MARKER}])
  {
    var f := f0[start := Lookup(f0, start) + {END_MARKER}];
    forall h | FollowSolution(g, nonTerminals, m, start, f0, h)
      ensures FollowWithin(f, h)
    {
      forall x ensures Lookup(f, x) <= Lookup(h, x) {
        assert Lookup(f0, x) <= Lookup(h, x);
      }
    }
  }

  /**
   * Relaxing the occurrence of `p[i]` in production `p` of `lhs` adds only
   * forced elements: what its two FOLLOW rules demand.
   */
  lemma ForcedStep(g: Rules, nonTerminals: set<Symbol>, m: Table, start: Symbol, f0: Table, f: Table,
                   lhs: Symbol, p: Production, i: nat, v: set<Symbol>)
    requires lhs in g && p in g[lhs] && i < |p| && p[i] in nonTerminals
    requires FollowForced(g, nonTerminals, m, start, f0, f)
    requires v <= Relaxed(m, f, lhs, p, i)
    ensures FollowForced(g, nonTerminals, m, start, f0, f[p[i] := v])
  {
    forall h | FollowSolution(g, nonTerminals, m, start, f0, h)
      ensures FollowWithin(f[p[i] := v], h)
    {
      var j :| 0 <= j < |g[lhs]| && g[lhs][j] == p;
      assert ProductionRules(nonTerminals, m, h, lhs, g[lhs][j]);
      assert OccurrenceRule(nonTerminals, m, h, lhs, p, i);
      forall x ensures Lookup(f[p[i] := v], x) <= Lookup(h, x) {
        assert Lookup(f, x) <= Lookup(h, x);
        assert Lookup(f, lhs) <= Lookup(h, lhs);
      }
    }
  }

  /**
   * A solution holding only forced elements is the least solution, so two
   * such tables read the same: the result does not depend on the order in
   * which the occurrences were relaxed.
   */
  lemma LeastSolutionUnique(g: Rules, nonTerminals: set<Symbol>, m: Table, start: Symbol,
                            f0: Table, f1: Table, f2: Table)
    requires FollowSolution(g, nonTerminals, m, start, f0, f1) && FollowForced(g, nonTerminals, m, start, f0, f1)
    requires FollowSolution(g, nonTerminals, m, start, f0, f2) && FollowForced(g, nonTerminals, m, start, f0, f2)
    ensures SameFollow(f1, f2)
  {
    assert FollowWithin(f1, f2) && FollowWithin(f2, f1);
  }

  // ---------------------------------------------------------------------
  // Which FIRST computations call which: when the recursion re-enters
  // ---------------------------------------------------------------------

  /**
   * The FIRST scan can step over `x` only when FIRST(x) may hold EPSILON:
   * `x` is EPSILON or a non-terminal with productions.
   */
  predicate MayVanish(g: Rules, x: Symbol) {
    x == EPSILON || x in g
  }

  /**
   * The symbols a left-to-right FIRST scan of `s` may ask for: `s[0]`, and
   * those of the rest of `s` when the scan may step over `s[0]`.
   */
  function LeftCalls(g: Rules, s: seq<Symbol>): set<Symbol>
    decreases |s|
  {
    if s == [] then {} else {s[0]} + (if MayVanish(g, s[0]) then LeftCalls(g, s[1..]) else {})
  }

  /** Computing FIRST(a) may ask for FIRST(b). */
  ghost predicate LeftEdge(g: Rules, a: Symbol, b: Symbol) {
    a in g && exists p :: p in g[a] && b in LeftCalls(g, UpTo(p, a))
  }

  /** Each symbol of `w` may ask for the next one. */
  ghost predicate LeftWalk(g: Rules, w: seq<Symbol>)
    decreases |w|
  {
    |w| <= 1 || (LeftEdge(g, w[0], w[1]) && LeftWalk(g, w[1..]))
  }

  /**
   * Some walk of FIRST requests returns to where it started: a cycle of
   * requests that may be made. Every divergence follows such a cycle, but a
   * cycle need not diverge.
   */
  ghost predicate LeftCyclic(g: Rules) {
    exists w :: |w| >= 2 && LeftWalk(g, w) && w[0] == w[|w| - 1]
  }

  /**
   * A walk of FIRST requests from `x` that re-enters: it ends at a symbol of
   * `active` or at a symbol it has already passed.
   */
  ghost predicate ReachesReentry(g: Rules, x: Symbol, active: set<Symbol>) {
    exists w :: Reenters(g, active, w) && w[0] == x
  }

  /** `w` is a walk of FIRST requests that ends at a symbol of `active` or at one it has already passed. */
  ghost predicate Reenters(g: Rules, active: set<Symbol>, w: seq<Symbol>) {
    |w| >= 1 && LeftWalk(g, w) && (w[|w| - 1] in active || w[|w| - 1] in w[..|w| - 1])
  }

  /**
   * The first production of `x`, cut at `x`, starts with a symbol that is
   * asked for before anything is recorded; following these first symbols
   * from `x` reaches a symbol of `active`, every symbol on the way being a
   * non-terminal with productions and without an entry in `m`.
   */
  ghost predicate HeadReentry(g: Rules, terminals: set<Symbol>, m: Table, x: Symbol, active: set<Symbol>)
    decreases |g.Keys - active|
  {
    x in g && x !in terminals && x != EPSILON && x !in m &&
    (x in active ||
     (|g[x]| > 0 && |UpTo(g[x][0], x)| > 0 &&
      (CardinalityDrop(g.Keys, active, x);
       HeadReentry(g, terminals, m, UpTo(g[x][0], x)[0], active + {x}))))
  }

  /** A request from `x`, running, to a symbol whose requests re-enter, re-enters from `x`. */
  lemma ReentryStep(g: Rules, x: Symbol, y: Symbol, active: set<Symbol>)
    requires LeftEdge(g, x, y) && ReachesReentry(g, y, active + {x})
    ensures ReachesReentry(g, x, active)
  {
    var w :| Reenters(g, active + {x}, w) && w[0] == y;
    var w' := [x] + w;
    assert w'[1..] == w;
    assert LeftWalk(g, w');
    var last := w[|w| - 1];
    assert w'[|w'| - 1] == last;
    assert w'[..|w'| - 1] == [x] + w[..|w| - 1];
    assert last in active || last in w'[..|w'| - 1];
    assert Reenters(g, active, w');
  }

  lemma {:induction false} WalkSuffix(g: Rules, w: seq<Symbol>, i: nat)
    requires i <= |w| && LeftWalk(g, w)
    ensures LeftWalk(g, w[i..])
    decreases i
  {
    if i > 0 && |w| >= 2 {
      WalkSuffix(g, w[1..], i - 1);
      assert w[1..][i - 1..] == w[i..];
    }
  }

  /** With nothing running, a walk that re-enters holds a cycle. */
  lemma ReentryCycle(g: Rules, x: Symbol)
    requires ReachesReentry(g, x, {})
    ensures LeftCyclic(g)
  {
    var w :| Reenters(g, {}, w) && w[0] == x;
    var before := w[..|w| - 1];
    assert w[|w| - 1] in before;
    var i :| 0 <= i < |before| && before[i] == w[|w| - 1];
    WalkSuffix(g, w, i);
    var c := w[i..];
    assert c[0] == c[|c| - 1];
  }

  lemma {:induction false} WalkDescends(g: Rules, rank: Symbol -> nat, w: seq<Symbol>)
    requires forall a, b :: LeftEdge(g, a, b) ==> rank(b) < rank(a)
    requires |w| >= 2 && LeftWalk(g, w)
    ensures rank(w[|w| - 1]) < rank(w[0])
    decreases |w|
  {
    if |w| > 2 {
      WalkDescends(g, rank, w[1..]);
    }
  }

  /** A rank that every FIRST request lowers rules out a cycle of FIRST requests. */
  lemma RankedAcyclic(g: Rules, rank: Symbol -> nat)
    requires forall a, b :: LeftEdge(g, a, b) ==> rank(b) < rank(a)
    ensures !LeftCyclic(g)
  {
    if LeftCyclic(g) {
      var w :| |w| >= 2 && LeftWalk(g, w) && w[0] == w[|w| - 1];
      WalkDescends(g, rank, w);
    }
  }

  /** In a valid table only EPSILON and non-terminals with productions have EPSILON in FIRST. */
  lemma NullableMayVanish(g: Rules, terminals: set<Symbol>, m: Table, x: Symbol)
    requires FirstTableValid(g, terminals, m) && EPSILON !in terminals
    requires EPSILON in Lookup(m, x)
    ensures MayVanish(g, x)
  {
    assert EntryConsistent(g, terminals, m, x);
  }

  /** A production not led by `a` keeps its first symbol when cut at `a`. */
  lemma UpToHead(p: Production, a: Symbol)
    requires p != [] && p[0] != a
    ensures |UpTo(p, a)| > 0 && UpTo(p, a)[0] == p[0]
  {
  }

  lemma {:induction false} LeftCallsReach(g: Rules, s: seq<Symbol>, i: nat)
    requires i < |s|
    requires forall k :: 0 <= k < i ==> MayVanish(g, s[k])
    ensures s[i] in LeftCalls(g, s)
    decreases i
  {
    if i > 0 {
      assert MayVanish(g, s[0]);
      LeftCallsReach(g, s[1..], i - 1);
    }
  }

  /**
   * The scan of production `p` of `a` that asks for `p[i]`, after a known
   * prefix whose FIRST sets all hold EPSILON, asks for one of its left calls.
   */
  lemma ScanCalls(g: Rules, terminals: set<Symbol>, m: Table, p: Production, a: Symbol, i: nat)
    requires FirstTableValid(g, terminals, m) && EPSILON !in terminals
    requires i < |p| && a !in p[..i] && p[i] != a
    requires NullableKnown(g, terminals, m, p[..i])
    ensures p[i] in LeftCalls(g, UpTo(p, a))
  {
    var r := UpTo(p, a);
    forall k | 0 <= k < i ensures MayVanish(g, r[k]) {
      assert r[k] == p[..i][k];
      NullableMayVanish(g, terminals, m, r[k]);
    }
    LeftCallsReach(g, r, i);
  }

  // ---------------------------------------------------------------------
  // Counting FOLLOW elements: a pass that changes something adds one
  // ---------------------------------------------------------------------

  ghost function Pick(s: set<Symbol>): (x: Symbol)
    requires s != {}
    ensures x in s
  {
    var x :| x in s; x
  }

  /** The number of elements of the FOLLOW sets of the symbols in `keys`. */
  ghost function FollowTotal(f: Table, keys: set<Symbol>): nat
    decreases keys
  {
    if keys == {} then 0 else var x := Pick(keys); |Lookup(f, x)| + FollowTotal(f, keys - {x})
  }

  /** Growing FOLLOW sets grow the total, strictly when the set of `x` in `keys` grows. */
  lemma {:induction false} TotalGrows(f: Table, f': Table, keys: set<Symbol>, x: Symbol)
    requires FollowWithin(f, f')
    ensures FollowTotal(f, keys) <= FollowTotal(f', keys)
    ensures x in keys && Lookup(f, x) != Lookup(f', x) ==> FollowTotal(f, keys) < FollowTotal(f', keys)
    decreases keys
  {
    if keys != {} {
      var y := Pick(keys);
      SubsetCard(Lookup(f, y), Lookup(f', y));
      TotalGrows(f, f', keys - {y}, x);
    }
  }

  /** A change to FOLLOW tables keyed within `keys` grows the total. */
  lemma ChangeGrowsTotal(f: Table, f': Table, keys: set<Symbol>)
    requires FollowWithin(f, f') && f'.Keys <= keys
    ensures FollowTotal(f, keys) <= FollowTotal(f', keys)
    ensures !SameFollow(f, f') ==> FollowTotal(f, keys) < FollowTotal(f', keys)
  {
    if !SameFollow(f, f') {
      var x :| Lookup(f, x) != Lookup(f', x);
      assert x in f';
      TotalGrows(f, f', keys, x);
    } else {
      TotalGrows(f, f', keys, EPSILON);
    }
  }

  /** The total counts the FOLLOW set of each symbol in `keys`. */
  lemma {:induction false} TotalAtLeast(f: Table, keys: set<Symbol>, x: Symbol)
    requires x in keys
    ensures |Lookup(f, x)| <= FollowTotal(f, keys)
    decreases keys
  {
    var y := Pick(keys);
    if y != x {
      TotalAtLeast(f, keys - {y}, x);
    }
  }

  lemma {:induction false} TotalBounded(f: Table, keys: set<Symbol>, b: nat)
    requires forall x :: x in keys ==> |Lookup(f, x)| <= b
    ensures FollowTotal(f, keys) <= |keys| * b
    decreases keys
  {
    if keys != {} {
      var y := Pick(keys);
      TotalBounded(f, keys - {y}, b);
      assert |keys - {y}| == |keys| - 1;
      assert (|keys| - 1) * b + b == |keys| * b;
    }
  }

  /**
   * FOLLOW sets of terminals and END_MARKER, kept for the non-terminals and
   * the start symbol, hold at most (|nonTerminals| + 1) * (|terminals| + 1)
   * elements in all.
   */
  lemma TotalCapacity(terminals: set<Symbol>, nonTerminals: set<Symbol>, start: Symbol, f: Table)
    requires FollowBounded(terminals, f)
    ensures FollowTotal(f, nonTerminals + {start}) <= (|nonTerminals| + 1) * (|terminals| + 1)
  {
    var keys := nonTerminals + {start};
    forall x | x in keys ensures |Lookup(f, x)| <= |terminals| + 1 {
      if x in f {
        SubsetCard(f[x], terminals + {END_MARKER});
      }
    }
    TotalBounded(f, keys, |terminals| + 1);
    assert |keys| <= |nonTerminals| + 1;
    MulMonotone(|keys|, |nonTerminals| + 1, |terminals| + 1);
  }

  lemma MulMonotone(a: nat, b: nat, c: nat)
    requires a <= b
    ensures a * c <= b * c
  {
  }

  /** Along growing tables, the first and the last read the same exactly when no step changed anything. */
  lemma SameFollowChain(f0: Table, f1: Table, f2: Table)
    requires FollowWithin(f0, f1) && FollowWithin(f1, f2)
    ensures SameFollow(f0, f2) <==> SameFollow(f0, f1) && SameFollow(f1, f2)
  {
    if SameFollow(f0, f2) {
      forall x ensures Lookup(f0, x) == Lookup(f1, x) == Lookup(f2, x) {
        assert Lookup(f0, x) <= Lookup(f1, x) && Lookup(f1, x) <= Lookup(f2, x);
        assert Lookup(f2, x) == Lookup(f0, x);
      }
    }
  }

  /** Adding `x` to the active set leaves fewer keys outside it. */
  lemma CardinalityDrop(keys: set<Symbol>, active: set<Symbol>, x: Symbol)
    requires x in keys && x !in active
    ensures |keys - (active + {x})| < |keys - active|
  {
    assert keys - active == (keys - (active + {x})) + {x};
  }
}
